=== FILE: README.md ===
# A Dafny model of the chat-bot's chat logic

This project models the logic of a small chat application: an Express back end that stores
user/bot exchanges in MongoDB and asks Gemini for replies, and a React front end that shows
chats, sends messages and lets the user pick a colour theme.

**Back end.**
- The message collection is a sequence of `Record(chatId, user, bot, timestamp)` values in
  insertion order (`Message`).
- Each route of the chat router is a pure function over that sequence (`ChatRoutes`,
  `Sessions`):
  - POST `/` validates the body, calls the reply generator and appends one record;
  - GET `/history/:chatId` filters by chat and sorts by timestamp;
  - GET `/sessions` models the `$group`/`$sort`/`$limit`/`$project` pipeline;
  - DELETE `/session/:chatId` removes a chat's records.
- The reply generator is modelled with its error classification (`GeminiService`). The Gemini
  SDK call is an outcome passed in.

**Front end.**
- The chat panel's optimistic send (`ChatView`).
- The message box (`ChatInput`).
- The session list and its relative timestamps (`Sidebar`).
- Text extraction and copying in code blocks (`CodeBlock`).
- The class choices made when a message is rendered (`ChatMessage`).
- The theme picker and the theme provider with its storage (`ThemeSelector`, `ThemeContext`).
- The page shell's state (`App`).

**Helpers.**
- `Text` holds the string operations these share: JavaScript `trim`, `includes`, decimal
  rendering and parsing, and UTF-8 byte-counting substrings.
- `Sorting` holds a stable insertion sort with its relational specification.

**Modelling conventions.**
- Network calls, the clock, the environment, the store's failures, local storage and the
  clipboard all become parameters or outcomes passed in.
- Sends are sequential.
- Timestamps are integer milliseconds.

Some properties of the code that the model makes explicit:
- A chat panel without a chat id posts every message to a fresh `chat-<now>` id. Such a
  conversation therefore lands in as many chats as it has messages (`ChatView.UnsetChatScattersSends`).
- The hover and mobile-close callbacks App passes to the sidebar are not among the sidebar's
  props and are never called, so in the running page the content expands only through the
  mobile toggle.
- Deleting a chat in the page removes it from App's own session list, which nothing reads. It
  neither calls DELETE `/session/:chatId` nor changes the list the sidebar shows.
- The custom-theme option in the picker is never marked active, even while the custom theme is
  current (`ThemeSelector.OneActiveOption`).

## Model

| member | source | states |
|---|---|---|
| Message.MissingFields | backend/src/models/message.ts:12-30 | exactly the required string paths that are absent, null or empty are reported; `timestamp` is never required |
| Message.Create | backend/src/models/message.ts:12-29 | a document is built exactly when `chatId`, `user` and `bot` are all provided; it carries them unchanged, and its timestamp is the given one or else the creation time |
| Message.Save | backend/src/routes/chat.ts:31-37 | a save appends exactly one record, at the end, exactly when validation passes and the store does not fail; otherwise the store is untouched and the error says why |
| Message.IncompleteDraftNeverPersisted | backend/src/models/message.ts:13-25 | a record lacking `chatId`, `user` or `bot` is never persisted, whatever the store does |
| Message.MatchingMembers | backend/src/routes/chat.ts:68 | the query `{ chatId }` selects exactly the store's records of that chat |
| Message.Without | backend/src/routes/chat.ts:118 | `deleteMany({ chatId })` keeps exactly the records of other chats |
| Message.MatchingAppend | backend/src/routes/chat.ts:68 | selecting by chat keeps the records' relative order |
| Message.WithoutAppend | backend/src/routes/chat.ts:118 | deleting a chat keeps the other records' relative order |
| Message.MatchingWithoutPartition | backend/src/routes/chat.ts:118 | the deleted and the surviving records together are the old store: nothing is lost or duplicated |
| Message.MatchingAfterInsert | backend/src/routes/chat.ts:37 | an insert adds the new record to the end of its own chat's records and leaves every other chat's records as they were |
| GeminiService.Attempt | backend/src/services/geminiService.ts:15-34 | the `try` block returns text exactly when a key is configured and the SDK gives non-blank text |
| GeminiService.GenerateResponse | backend/src/services/geminiService.ts:15-55 | a returned reply is the SDK text and is never empty or whitespace-only; a missing key always ends as "Gemini API key is missing or invalid"; an empty reply becomes "Failed to generate response: Empty response from Gemini API"; a thrown `null` or `undefined` escapes as the `TypeError` the catch block itself raises, unprefixed; every other failure is the rewritten message |
| GeminiService.KnownMessagesClassify | backend/src/services/geminiService.ts:15-32 | the missing-key message is classified as a key error and the empty-reply message as unclassified |
| GeminiService.KeyMissingMentionsKey | backend/src/services/geminiService.ts:17-18 | the missing-key message contains "API key" |
| GeminiService.EmptyReplyUnclassified | backend/src/services/geminiService.ts:30-32 | the empty-reply message contains none of "API key", "quota", "model" |
| GeminiService.FixedRewritesKeyMention | backend/src/services/geminiService.ts:40-50 | of the three fixed rewritten messages only the key message contains "API key" |
| GeminiService.KeyInvalidMentionsKey | backend/src/services/geminiService.ts:40-41 | the key rewrite contains "API key" |
| GeminiService.QuotaMessageOmitsKey | backend/src/services/geminiService.ts:43-44 | the quota rewrite does not contain "API key" |
| GeminiService.ModelMessageOmitsKey | backend/src/services/geminiService.ts:46-49 | the model rewrite does not contain "API key" |
| GeminiService.RewriteKeepsKeyMention | backend/src/services/geminiService.ts:38-53 | a rethrown message contains "API key" exactly when the caught message did; a thrown `null` or `undefined` never yields a mention |
| GeminiService.KeyMentionIffKeyError | backend/src/services/geminiService.ts:39-53 | for an `Error` instance, the rethrown message contains "API key" exactly when the error was classified as a key error |
| GeminiService.RewriteRecoversClass | backend/src/services/geminiService.ts:38-53 | reading the rethrown message back recovers the class the caught value fell into, and an unclassified message still carries the original text after "Failed to generate response: " |
| ChatRoutes.ValidateChatRequest | backend/src/routes/chat.ts:8-20 | accepts exactly a string `message` with a non-blank trim and a non-empty string `chatId` (whitespace-only ids pass); `message` is checked first, so both errors report the message |
| ChatRoutes.PostFailure | backend/src/routes/chat.ts:44-61 | every failure is a 500; "Configuration error" exactly when the message contains "API key"; otherwise "Failed to process message" with the raw message or, in production, the fixed text |
| ChatRoutes.PostChat | backend/src/routes/chat.ts:23-62 | a 400 exactly when validation fails; a 200 exactly when the request is valid, the reply is generated and the save succeeds, and then exactly one record `{chatId, user: message, bot: reply}` is appended and the body echoes the reply and the id; on every other path the store is unchanged |
| ChatRoutes.PostConfigurationErrorIffKeyError | backend/src/routes/chat.ts:48-53 | for a valid request whose generation fails with an `Error`, the response is "Configuration error" exactly when the service classified the error as a key error |
| ChatRoutes.PostGenerationFailure | backend/src/routes/chat.ts:55-60 | any other generation failure is "Failed to process message", with the service's message, or the fixed text in production |
| ChatRoutes.PostDraftAlwaysValid | backend/src/routes/chat.ts:31-37 | a body that passes validation plus a non-blank generated reply always makes a record that passes the schema's required checks |
| ChatRoutes.History | backend/src/routes/chat.ts:68 | the result is a reordering of the chat's records in non-decreasing timestamp order |
| ChatRoutes.HistoryExactlyTheChat | backend/src/routes/chat.ts:68-69 | history holds exactly the chat's records, one entry per record, and is empty (not an error) for an unknown chat |
| ChatRoutes.HistoryKeepsInsertionOrder | backend/src/routes/chat.ts:68 | records stored with strictly increasing timestamps come back in insertion order |
| ChatRoutes.SortByAppendLargest | backend/src/routes/chat.ts:68 | a record with a timestamp later than every stored one ends the sorted history |
| ChatRoutes.PostThenHistory | backend/src/routes/chat.ts:28-43 | after a successful POST at a time later than every stored record, the chat's history is the old history followed by the new exchange |
| ChatRoutes.HistoryRoute | backend/src/routes/chat.ts:65-74 | a 200 with exactly the chat's records, each as often as it is stored, in timestamp order, unless the query fails, then a 500 "Failed to retrieve chat history" |
| ChatRoutes.DeleteSession | backend/src/routes/chat.ts:118 | exactly the records of other chats remain, and as many records go as the chat had |
| ChatRoutes.DeleteIsolatesChat | backend/src/routes/chat.ts:118 | after a delete the chat's history is empty and every other chat's records are unchanged |
| ChatRoutes.DeleteUnknownIsNoOp | backend/src/routes/chat.ts:118-119 | deleting a chat with no records changes nothing |
| ChatRoutes.DeleteIdempotent | backend/src/routes/chat.ts:118 | deleting twice is deleting once |
| ChatRoutes.DeleteRoute | backend/src/routes/chat.ts:115-124 | a 200 "Chat session deleted successfully" exactly when `deleteMany` completes, whether or not anything matched, and then the store is the completed delete's; otherwise a 500 "Failed to delete chat session", after which nothing has been added and every other chat's records are exactly as before, same records, same count, same order |
| ChatRoutes.Survivors | backend/src/routes/chat.ts:118 | a delete interrupted part-way keeps every record of other chats and adds none, so it leaves at least as many records as a completed delete and at most as many as before |
| ChatRoutes.SurvivorsIsolates | backend/src/routes/chat.ts:118 | after an interrupted delete every other chat's selection is unchanged: the same records, as many of each, in the same order |
| ChatRoutes.FailedDeleteBounds | backend/src/routes/chat.ts:118-122 | a failure before the first removal leaves the store unchanged, and one after the last removal leaves what a completed delete leaves |
| Sorting.SortBy | backend/src/routes/chat.ts:68 | the sort returns a permutation of its input in non-decreasing key order |
| Sorting.SortBySortedInput | backend/src/routes/chat.ts:68 | input already in order comes back unchanged |
| Sorting.KeptDominateOmitted | backend/src/routes/chat.ts:89-94 | whatever order a sort puts equal keys in, the elements kept by a prefix are no greater than those left out |
| Sessions.ChatIds | backend/src/routes/chat.ts:81-82 | the group keys are the store's chat ids, each once |
| Sessions.ChatHasRecords | backend/src/routes/chat.ts:81-82 | a chat id occurs in the store exactly when the chat has records |
| Sessions.Group | backend/src/routes/chat.ts:80-88 | `$group` yields one row per chat id, ids distinct |
| Sessions.GroupSummarises | backend/src/routes/chat.ts:81-87 | each row carries its chat's first `user` and last `bot`, where first and last follow insertion order, plus the last timestamp and the record count |
| Sessions.GroupCoversChats | backend/src/routes/chat.ts:81-82 | a chat has a row exactly when it has records |
| Sessions.Top | backend/src/routes/chat.ts:89-94 | at most 50 rows, newest first, drawn from the input, ids distinct |
| Sessions.TopKeepsNewest | backend/src/routes/chat.ts:89-94 | every row the limit drops is no newer than every row it keeps, and nothing is dropped below the limit |
| Sessions.NewestFirstPrefix | backend/src/routes/chat.ts:89-94 | any newest-first reordering, however it orders ties, keeps a prefix that dominates the rest |
| Sessions.RankedSummarise | backend/src/routes/chat.ts:80-94 | the kept rows still summarise their chats |
| Sessions.ProjectAll | backend/src/routes/chat.ts:95-104 | projection succeeds row by row, and fails exactly when some row's `$substr` fails |
| Sessions.ProjectDescribes | backend/src/routes/chat.ts:95-104 | a projected row keeps the id, the count and the last timestamp, and has the first 50 bytes of the title and the first 100 bytes of the last reply; it fails exactly when a cut falls inside a character |
| Sessions.ListSessions | backend/src/routes/chat.ts:79-105 | the listing holds min(50, number of chats) summaries with distinct ids, newest first |
| Sessions.ListingDescribesChats | backend/src/routes/chat.ts:79-105 | each listed summary is a chat of the store, with its record count, last timestamp, truncated first message and truncated last reply |
| Sessions.ListingFailsIffCutInsideCharacter | backend/src/routes/chat.ts:98-99 | the listing fails exactly when a kept chat's title or preview is cut inside a multi-byte character |
| Sessions.ListingFollowsRanking | backend/src/routes/chat.ts:89-104 | a successful listing lists the ranked chats in rank order |
| Sessions.OmittedRow | backend/src/routes/chat.ts:89-94 | a row the limit leaves out means 50 rows were kept, all at least as recent |
| Sessions.GroupRowTimestamp | backend/src/routes/chat.ts:85 | a row's timestamp is that of its chat's last inserted record |
| Sessions.OmittedFromRanking | backend/src/routes/chat.ts:89-94 | a chat missing from the ranking means 50 chats were ranked, none older than its last record |
| Sessions.OmittedAreOlder | backend/src/routes/chat.ts:79-105 | a chat missing from a successful listing means 50 were listed, none older than its last record |
| Sessions.SessionsRoute | backend/src/routes/chat.ts:77-112 | a 200 with the listing, or "Failed to retrieve chat sessions" when the aggregation fails or a cut breaks a character |
| Sessions.ListSessionsByCodePoint | backend/src/routes/chat.ts:95-104 | with code-point cuts the listing never fails, and it lists the same ranked chats with up to 50 and 100 characters |
| Sessions.SubstrBytesUniformWidth | backend/src/routes/chat.ts:98 | in a string of same-width characters, a byte count that is not a multiple of the width makes `$substr` fail |
| Sessions.EmojiTitleBreaksListing | backend/src/routes/chat.ts:98 | a chat whose first message is 13 four-byte emoji makes GET `/sessions` fail |
| Text.TrimEmptyIffBlank | backend/src/routes/chat.ts:11 | `trim()` gives "" exactly when the string is all JavaScript whitespace |
| Text.TrimShape | frontend/src/components/CodeBlock.tsx:45 | the trimmed text is a contiguous piece of the original with only whitespace removed around it, and no whitespace at either end |
| Text.TrimIdempotent | frontend/src/components/CodeBlock.tsx:53 | trimming twice is trimming once |
| Text.IncludesIffOccurs | backend/src/services/geminiService.ts:40 | `includes` is exactly "occurs at some index" |
| Text.NatToStringRoundTrip | frontend/src/components/Chat.tsx:74 | the decimal text of a time reads back as that time |
| Text.IntToStringRoundTrip | frontend/src/components/Chat.tsx:102 | the decimal text of a status, negative or not, reads back as that status |
| Text.SubstrBytes | backend/src/routes/chat.ts:98-99 | a byte-counted prefix is a prefix of the string within the byte budget, and is the whole string or exactly fills the budget |
| Text.SubstrBytesFailsIffMidCharacter | backend/src/routes/chat.ts:98-99 | `$substr` fails exactly when the byte count falls inside a character |
| Text.SubstrBytesAscii | backend/src/routes/chat.ts:98-99 | on ASCII text the byte-counted prefix is the first `count` characters, and shorter strings are unchanged |
| Text.TakeCodePoints | backend/src/routes/chat.ts:98-99 | the code-point prefix has min(count, length) characters |
| ChatView.LoadHistory | frontend/src/components/Chat.tsx:27-46 | no chat id empties the list; otherwise only an array body replaces it, and any other body or a failed fetch leaves it unchanged |
| ChatView.FreshChatIdReadsBack | frontend/src/components/Chat.tsx:74 | a fresh id is "chat-" followed by the decimal creation time, which reads back |
| ChatView.FreshChatIdInjective | frontend/src/components/Chat.tsx:74 | fresh ids made at different instants differ |
| ChatView.PostTarget | frontend/src/components/Chat.tsx:74 | a non-empty chat id is posted to as is; otherwise "chat-" plus the current time |
| ChatView.UnsetChatScattersSends | frontend/src/components/Chat.tsx:74 | without a chat id, two sends at different instants post to different chats |
| ChatView.BeginSend | frontend/src/components/Chat.tsx:61-71 | a send turns loading on, clears the error and appends exactly one placeholder `{user: message, bot: ""}` |
| ChatView.DropLast | frontend/src/components/Chat.tsx:109 | `slice(0, -1)` drops the last entry, and an empty list stays empty |
| ChatView.FinishSend | frontend/src/components/Chat.tsx:83-112 | a delivered reply replaces only the last entry; any other outcome drops it and records the error text; loading ends on both paths |
| ChatView.SendDelivered | frontend/src/components/Chat.tsx:58-92 | a delivered send leaves earlier entries as they were, adds `{user: message, bot: reply}` at the end, grows the list by one and shows no error |
| ChatView.SendFailedRollsBack | frontend/src/components/Chat.tsx:93-112 | a failed send, or one whose body has no reply, restores the list it started from and shows the error |
| ChatView.ErrorTextReportsStatus | frontend/src/components/Chat.tsx:100-106 | the text names the response's status when a response exists, and the connection message names none |
| ChatInput.Submit | frontend/src/components/ChatInput.tsx:12-21 | sends exactly when enabled and the text is not blank; the sent text is the raw, untrimmed message and the box is cleared; otherwise the text is unchanged |
| ChatInput.SubmitIffButtonEnabled | frontend/src/components/ChatInput.tsx:48-52 | a submit sends exactly when the send button is enabled |
| ChatInput.KeyDown | frontend/src/components/ChatInput.tsx:27-32 | Enter without Shift submits; Shift+Enter and other keys send nothing |
| Sidebar.FormatSession | frontend/src/components/Sidebar.tsx:35-40 | a falsy title shows as "New Chat" and a falsy preview as ""; the id and timestamp carry over |
| Sidebar.LoadSessions | frontend/src/components/Sidebar.tsx:27-50 | only an OK response replaces the list, item for item; a non-OK response or a failed fetch keeps it |
| Sidebar.UnitThresholds | frontend/src/components/Sidebar.tsx:55-61 | minutes below one hour, hours from one hour to below one day, days from one day on: exactly one case applies |
| Sidebar.UnitMonotone | frontend/src/components/Sidebar.tsx:59-61 | a larger difference never gets a smaller unit |
| Sidebar.FormatTimestampReadsBack | frontend/src/components/Sidebar.tsx:52-62 | the text is the whole number of elapsed units followed by that unit's "m ago", "h ago" or "d ago" |
| Sidebar.CountIsFloor | frontend/src/components/Sidebar.tsx:55-61 | the count shown is the floor of the difference in its unit, under 60 for minutes, from 1 to 23 for hours and at least 1 for days |
| Sidebar.AtMostOneActive | frontend/src/components/Sidebar.tsx:89-91 | an item is active exactly when its id is the current chat id; with distinct ids at most one is, and none without a current chat |
| CodeBlock.ExtractTextIsLeaves | frontend/src/components/CodeBlock.tsx:18-32 | the extracted text is the strings and decimal numbers of the tree concatenated in document order; other nodes give "" |
| CodeBlock.ExtractTextSplits | frontend/src/components/CodeBlock.tsx:28-30 | an array's text is its items' texts in order, with no separator |
| CodeBlock.CopyText | frontend/src/components/CodeBlock.tsx:37-45 | nothing is copied exactly when the text is whitespace-only |
| CodeBlock.CopyTextShape | frontend/src/components/CodeBlock.tsx:40-53 | copied text is non-empty and trimmed, and only whitespace around it is dropped |
| CodeBlock.HandleCopy | frontend/src/components/CodeBlock.tsx:34-64 | a click copies the trimmed text and sets the flag unless the text is blank or both copy paths fail; then nothing changes |
| CodeBlock.IsCodeBlockIff | frontend/src/components/CodeBlock.tsx:66 | the header is shown exactly when the class contains "code-block" or the language is non-empty |
| CodeBlock.LanguageLabel | frontend/src/components/CodeBlock.tsx:72 | the label is the language, or "code" when it is empty or absent |
| ChatMessage.WrapperClassReadsBack | frontend/src/components/ChatMessage.tsx:14-18 | the wrapper class is "user-message" for user messages and "assistant-message" otherwise, and reads back |
| ChatMessage.MessageBody | frontend/src/components/ChatMessage.tsx:38-41 | user messages are shown verbatim; only assistant messages go through markdown |
| ChatMessage.HasLanguageTagIff | frontend/src/components/ChatMessage.tsx:46 | the scan matches exactly when "language-" followed by a word character occurs somewhere in the class |
| ChatMessage.CodeClassIff | frontend/src/components/ChatMessage.tsx:45-49 | a code element is "code-block" exactly when its class matches `/language-(\w+)/`, else "inline-code"; a missing class gives "inline-code" |
| ChatMessage.TagAfterOtherClass | frontend/src/components/ChatMessage.tsx:46 | the match is unanchored: "hljs language-ts" is a code block |
| ChatMessage.BarePrefixIsInline | frontend/src/components/ChatMessage.tsx:46 | "language-" followed by no word character is inline |
| ThemeSelector.ExactlySixPresets | frontend/src/components/ThemeSelector.tsx:17-84 | exactly six presets, `blue`, `blackWhite`, `lightGray`, `midnightBlue`, `softPeach`, `forestGreen`, each once |
| ThemeSelector.Set | frontend/src/components/ThemeSelector.tsx:114-119 | editing one property changes only that property |
| ThemeSelector.SetLaws | frontend/src/components/ThemeSelector.tsx:114-119 | writing back a property's own value changes nothing; a later edit of the same property overrides an earlier one |
| ThemeSelector.InitialCustomIsBlue | frontend/src/components/ThemeSelector.tsx:97-107 | the initial custom theme is the blue preset in every colour, named "Custom Theme" |
| ThemeSelector.SelectPreset | frontend/src/components/ThemeSelector.tsx:109-112 | selecting reports the key with no custom theme and closes the dropdown |
| ThemeSelector.EditCustom | frontend/src/components/ThemeSelector.tsx:114-119 | an edit changes the one custom-theme property and nothing else |
| ThemeSelector.ApplyCustom | frontend/src/components/ThemeSelector.tsx:121-125 | applying reports "custom" with the edited theme and closes both the dropdown and the customizer |
| ThemeSelector.ToggleTwice | frontend/src/components/ThemeSelector.tsx:131 | the toggle flips `isOpen` only, so two toggles restore the state |
| ThemeSelector.OneActiveOption | frontend/src/components/ThemeSelector.tsx:165-170 | only the option whose key is the current theme is active: one for a preset key, none for "custom" |
| ThemeContext.Resolve | frontend/src/contexts/ThemeContext.tsx:90-93 | the custom theme when the key is "custom" and one exists; otherwise the preset of that key, or nothing |
| ThemeContext.InitialIsBlue | frontend/src/contexts/ThemeContext.tsx:31-32 | the provider starts on "blue" with no custom theme, showing the blue preset |
| ThemeContext.SetTheme | frontend/src/contexts/ThemeContext.tsx:76-88 | the key always becomes current and is stored; a custom theme is kept and stored only under the key "custom"; other storage keys are untouched |
| ThemeContext.LoadFromStorage | frontend/src/contexts/ThemeContext.tsx:35-50 | a non-empty stored key is adopted; under the key "custom" a non-empty stored custom theme that parses is adopted, and the custom theme changes in no other case |
| ThemeContext.SetThenReload | frontend/src/contexts/ThemeContext.tsx:35-88 | a theme set with a non-empty key is what a reload shows |
| ThemeContext.EmptyKeyNotRestored | frontend/src/contexts/ThemeContext.tsx:39-40 | an empty key shows no theme and a reload comes back on blue |
| ThemeContext.SelectingPresetShowsIt | frontend/src/components/ThemeSelector.tsx:109-112 | choosing a preset in the picker shows that preset |
| ThemeContext.ApplyingCustomShowsIt | frontend/src/components/ThemeSelector.tsx:121-125 | applying the custom theme shows exactly the edited theme |
| ThemeContext.AppliedStyles | frontend/src/contexts/ThemeContext.tsx:53-74 | nothing is written when no theme resolves, and all ten style entries otherwise |
| ThemeContext.StylesCarryTheTheme | frontend/src/contexts/ThemeContext.tsx:59-72 | each colour is written under its own variable, so the theme can be read back from the styles |
| ThemeContext.UseTheme | frontend/src/contexts/ThemeContext.tsx:18-24 | fails with "useTheme must be used within a ThemeProvider" outside a provider, and returns the provider's key and theme inside one |
| App.NewChat | frontend/src/App.tsx:15-19 | a new chat becomes current under "chat-" plus the current time; nothing else changes |
| App.NewChatsDiffer | frontend/src/App.tsx:16 | new chats made at different instants get different ids |
| App.SelectChat | frontend/src/App.tsx:21-24 | selecting makes the given chat current; nothing else changes |
| App.RemoveSession | frontend/src/App.tsx:27 | the filter keeps exactly the sessions with other ids |
| App.RemoveSessionAppend | frontend/src/App.tsx:27 | the filter keeps the survivors' order |
| App.DeleteChat | frontend/src/App.tsx:26-31 | the current chat is cleared only when it is the deleted one; the list loses exactly that chat's sessions |
| App.DeleteIdempotent | frontend/src/App.tsx:26-31 | deleting twice is deleting once |
| App.ExpandedFollowsSidebar | frontend/src/App.tsx:33-62 | the content is expanded exactly while hovered or open on mobile; toggle flips, close shuts, nothing starts expanded |
| App.SwitchingChatsClearsPanel | frontend/src/App.tsx:78 | opening another chat remounts the panel with no messages, no error and no loading |

## Left out

- The Express wiring, CORS, the database connection and the generic 404/500 middleware: these are I/O plumbing.
- The Gemini SDK call is a `SdkOutcome` parameter: returned text, or a thrown value.
- GeminiService.GenerateResponse: a value thrown by the SDK other than an `Error`, `null` or `undefined` carries the text its `message` property renders to, so JavaScript's string conversion of that property is not modelled. An `Error` whose `message` was replaced by a non-string, a `message` getter that throws, and a conversion that throws are not modelled either. The `TypeError` text for `null`/`undefined` is V8's wording.
- The environment (`GEMINI_API_KEY`, `NODE_ENV`) becomes parameters.
- MongoDB internals become plain data:
  - a failing query, aggregation or save is a boolean or message parameter, and a failing delete
    names the positions it had already removed;
  - indexes are not modelled;
  - `timestamp` is integer milliseconds, not a `Date`.
- ChatRoutes.History: tie order after `$sort`/`sort` is unspecified. The contract states only the
  permutation and the order. The stable `Sorting.SortBy` is one admissible witness, not the
  database's order.
- Sessions.Top: for the same reason, a tie in timestamp among kept rows is ordered by the
  witness sort.
- HTTP status plumbing is reduced to the 200/400/500 tag with its body.
- Chat.tsx and Sidebar.tsx receive network calls' results as parameters. Overlapping sends and the
  asynchronous interleaving of React updates are not modelled: sends are sequential.
- Scrolling, rendering, CSS, animations, SVGs and the markdown renderer itself are left out.
  ChatMessage only keeps the class choices and the verbatim/markdown split.
- Sidebar.FormatTimestamp: the clock and `new Date(session.timestamp)` parsing are left out.
  `now` and the timestamp are integer milliseconds, which makes JavaScript's `Math.floor` of
  the quotient Dafny's `/`.
- The sidebar's collapse toggle is left out: it only hides the list.
- CodeBlock.ExtractText: numbers are integers. JavaScript's `String` of a fractional or special
  number (`NaN`, `Infinity`, exponent notation) is not modelled.
- CodeBlock.HandleCopy: the clipboard API and the `textarea` fallback are an outcome
  parameter, and the 2000 ms reset of the "copied" flag is left out.
- ThemeContext.LoadFromStorage: local storage is a map, and `JSON.parse`/`JSON.stringify` are a
  decoder and an encoder passed in. A parse that yields a value other than a theme or `null` is
  not modelled.
- ThemeContext.Resolve: `themes[key]` for a key inherited from `Object.prototype`
  (e.g. "constructor") is treated as absent.
- ThemeContext.AppliedStyles: DOM writes are a map from variable name to value.
- ThemeContext.SetThenReload: assumes the encoder never gives "" and reads back through the
  decoder. `JSON.stringify` of a theme is a non-empty object literal that parses back.
- App: the sessions list App keeps is modelled as written, though nothing reads it.
  WelcomePlaceholder and LoadingSpinner are presentation only.

## Findings

| source | as written | input that shows it | evidently intended | confidence | as-written member | corrected member |
|---|---|---|---|---|---|---|
| backend/src/routes/chat.ts:98-99 | `$substr` counts UTF-8 bytes and errors when byte 50 of the title or byte 100 of the last reply falls inside a multi-byte character, so the whole GET `/sessions` fails with 500 | a chat whose first message is thirteen U+1F600 emoji (52 bytes; byte 50 is inside the 13th) | cut titles and previews by characters (`$substrCP`), so the listing never fails | not executed | Sessions.EmojiTitleBreaksListing | Sessions.ListSessionsByCodePoint |

=== FILE: app.dfy ===
/** The page shell (`frontend/src/App.tsx`): which chat is open, the local session list,
    the mobile sidebar and hover flags, and the class of the main content area. The clock
    is a parameter (`now`, milliseconds). */
module App {
  import opened Wrappers
  import opened ChatView
  import Sidebar

  /** `currentChatId`, the local sessions list, `isMobileSidebarOpen`, `isSidebarHovered`. */
  datatype AppState = AppState(
    currentChatId: Option<string>,
    sessions: seq<Sidebar.SessionItem>,
    mobileOpen: bool,
    hovered: bool)

  /** No chat is open at first. */
  const InitialApp := AppState(None, [], false, false)

  /** `handleNewChat`: opens a fresh chat named after the current time. */
  function NewChat(st: AppState, now: nat): (r: AppState)
    ensures r.currentChatId == Some(FreshChatId(now))
    ensures r.sessions == st.sessions && r.mobileOpen == st.mobileOpen && r.hovered == st.hovered
  {
    st.(currentChatId := Some(FreshChatId(now)))
  }

  /** New chats started at different instants get different ids, and each id has the
      chat prefix. */
  lemma NewChatsDiffer(st: AppState, a: nat, b: nat)
    requires a != b
    ensures NewChat(st, a).currentChatId != NewChat(st, b).currentChatId
    ensures var id := NewChat(st, a).currentChatId.value;
      |id| > |ChatIdPrefix| && id[..|ChatIdPrefix|] == ChatIdPrefix
  {
    if FreshChatId(a) == FreshChatId(b) {
      FreshChatIdInjective(a, b);
    }
    FreshChatIdReadsBack(a);
  }

  /** `handleSelectChat`: opens the given chat. */
  function SelectChat(st: AppState, chatId: string): (r: AppState)
    ensures r.currentChatId == Some(chatId)
    ensures r.sessions == st.sessions && r.mobileOpen == st.mobileOpen && r.hovered == st.hovered
  {
    st.(currentChatId := Some(chatId))
  }

  /** `prev.filter((chat) => chat.id !== chatId)`. */
  function RemoveSession(sessions: seq<Sidebar.SessionItem>, chatId: string): (r: seq<Sidebar.SessionItem>)
    ensures |r| <= |sessions|
    ensures forall x :: x in r <==> x in sessions && x.id != chatId
  {
    if |sessions| == 0 then []
    else
      var rest := RemoveSession(sessions[1..], chatId);
      if sessions[0].id != chatId then [sessions[0]] + rest else rest
  }

  /** The filter works element by element, so it keeps the survivors' order: filtering
      a concatenation is concatenating the filtered parts. */
  lemma {:induction false} RemoveSessionAppend(a: seq<Sidebar.SessionItem>, b: seq<Sidebar.SessionItem>, chatId: string)
    ensures RemoveSession(a + b, chatId) == RemoveSession(a, chatId) + RemoveSession(b, chatId)
  {
    if |a| == 0 {
      assert a + b == b;
    } else {
      assert (a + b)[0] == a[0];
      assert (a + b)[1..] == a[1..] + b;
      RemoveSessionAppend(a[1..], b, chatId);
    }
  }

  /** Sessions without the id are all kept, in order. */
  lemma {:induction false} RemoveAbsentKeepsAll(sessions: seq<Sidebar.SessionItem>, chatId: string)
    requires forall i :: 0 <= i < |sessions| ==> sessions[i].id != chatId
    ensures RemoveSession(sessions, chatId) == sessions
  {
    if |sessions| > 0 {
      RemoveAbsentKeepsAll(sessions[1..], chatId);
      assert sessions == [sessions[0]] + sessions[1..];
    }
  }

  /** `handleDeleteChat`: drops the chat's sessions from the local list and closes the
      chat only if it was the open one. The backend is not asked to delete anything. */
  function DeleteChat(st: AppState, chatId: string): (r: AppState)
    ensures r.sessions == RemoveSession(st.sessions, chatId)
    ensures st.currentChatId == Some(chatId) ==> r.currentChatId == None
    ensures st.currentChatId != Some(chatId) ==> r.currentChatId == st.currentChatId
    ensures r.mobileOpen == st.mobileOpen && r.hovered == st.hovered
  {
    st.(sessions := RemoveSession(st.sessions, chatId),
        currentChatId := if st.currentChatId == Some(chatId) then None else st.currentChatId)
  }

  /** Deleting a chat twice is deleting it once. */
  lemma DeleteIdempotent(st: AppState, chatId: string)
    ensures DeleteChat(DeleteChat(st, chatId), chatId) == DeleteChat(st, chatId)
  {
    var once := RemoveSession(st.sessions, chatId);
    forall i | 0 <= i < |once| ensures once[i].id != chatId {
      assert once[i] in once;
    }
    RemoveAbsentKeepsAll(once, chatId);
  }

  /** The hamburger button. */
  function ToggleMobile(st: AppState): (r: AppState)
    ensures r.mobileOpen == !st.mobileOpen
    ensures r.currentChatId == st.currentChatId && r.sessions == st.sessions && r.hovered == st.hovered
  {
    st.(mobileOpen := !st.mobileOpen)
  }

  /** The overlay and the sidebar's own close action. */
  function CloseMobile(st: AppState): (r: AppState)
    ensures !r.mobileOpen
    ensures r.currentChatId == st.currentChatId && r.sessions == st.sessions && r.hovered == st.hovered
  {
    st.(mobileOpen := false)
  }

  /** `handleSidebarHoverChange`. */
  function HoverChange(st: AppState, isHovered: bool): (r: AppState)
    ensures r.hovered == isHovered
    ensures r.currentChatId == st.currentChatId && r.sessions == st.sessions && r.mobileOpen == st.mobileOpen
  {
    st.(hovered := isHovered)
  }

  /** The "sidebar-expanded" class on the main content. */
  predicate MainContentExpanded(st: AppState) {
    st.hovered || st.mobileOpen
  }

  /** The main content is expanded exactly while the sidebar is hovered or open on
      mobile: opening it expands the content, and closing it leaves the content
      expanded only while hovered. */
  lemma ExpandedFollowsSidebar(st: AppState)
    ensures MainContentExpanded(ToggleMobile(st)) <==> st.hovered || !st.mobileOpen
    ensures MainContentExpanded(CloseMobile(st)) <==> st.hovered
    ensures ToggleMobile(ToggleMobile(st)) == st
    ensures !MainContentExpanded(InitialApp)
  {
  }

  // ---------------------------------------------------------------------------
  // The chat panel is keyed by the open chat
  // ---------------------------------------------------------------------------

  /** `<Chat key={currentChatId} …/>`: opening a different chat mounts a new panel, so its
      state starts over; the same chat keeps its panel. */
  function PanelAfter(panel: ChatState, before: Option<string>, after: Option<string>): (r: ChatState)
    ensures before == after ==> r == panel
    ensures before != after ==> r == InitialChat
  {
    if before == after then panel else InitialChat
  }

  /** Opening another chat shows none of the previous chat's messages, nor its error,
      until the new chat's history arrives. */
  lemma SwitchingChatsClearsPanel(st: AppState, panel: ChatState, chatId: string)
    requires st.currentChatId != Some(chatId)
    ensures var r := PanelAfter(panel, st.currentChatId, SelectChat(st, chatId).currentChatId);
      r.messages == [] && r.error == None && !r.loading
  {
  }
}

=== FILE: chat_input.dfy ===
/** The message box (`frontend/src/components/ChatInput.tsx`): the text being typed,
    the submit guard, the Enter-key rule and the send button's enabled state. */
module ChatInput {
  import opened Wrappers
  import opened Text

  /** The controlled textarea's value. */
  datatype InputState = InputState(message: string)

  /** The send button is enabled: `disabled || message.trim() === ''` is false. */
  predicate SendEnabled(message: string, disabled: bool) {
    !disabled && Trim(message) != ""
  }

  /** `handleSubmit`: a blank message or a disabled input sends nothing and keeps the
      text; otherwise the text is sent as typed, untrimmed, and the box is cleared. */
  function Submit(st: InputState, disabled: bool): (r: (InputState, Option<string>))
    ensures r.1.Some? <==> !disabled && !IsBlank(st.message)
    ensures r.1.Some? ==> r.1.value == st.message && r.0.message == ""
    ensures r.1.None? ==> r.0 == st
  {
    TrimEmptyIffBlank(st.message);
    if Trim(st.message) == "" || disabled then (st, None)
    else (InputState(""), Some(st.message))
  }

  /** Submitting sends exactly when the send button is enabled. */
  lemma SubmitIffButtonEnabled(st: InputState, disabled: bool)
    ensures Submit(st, disabled).1.Some? <==> SendEnabled(st.message, disabled)
  {
    TrimEmptyIffBlank(st.message);
  }

  /** `handleChange`. */
  function Change(st: InputState, value: string): (r: InputState)
    ensures r.message == value
  {
    InputState(value)
  }

  /** `handleKeyDown`: Enter without Shift submits; every other key (Shift+Enter
      included) sends nothing and leaves the text to the textarea. */
  function KeyDown(st: InputState, disabled: bool, key: string, shift: bool): (r: (InputState, Option<string>))
    ensures r.1.Some? <==> key == "Enter" && !shift && SendEnabled(st.message, disabled)
    ensures r.1.Some? ==> r.1.value == st.message && r.0.message == ""
    ensures r.1.None? ==> r.0 == st
  {
    SubmitIffButtonEnabled(st, disabled);
    if key == "Enter" && !shift then Submit(st, disabled) else (st, None)
  }
}

=== FILE: chat_message.dfy ===
/** One rendered message (`frontend/src/components/ChatMessage.tsx`): the wrapper's
    class, whether the text goes through markdown, and the class the markdown `code`
    renderer gives a code element. The markdown rendering itself is not modelled. */
module ChatMessage {
  import opened Wrappers
  import opened Text

  const WrapperBase: string := "message-wrapper "
  const UserClass: string := "user-message"
  const AssistantClass: string := "assistant-message"

  /** The wrapper `div`'s class. */
  function WrapperClass(isUser: bool): string {
    WrapperBase + (if isUser then UserClass else AssistantClass)
  }

  /** Reads the author back from a wrapper class: the inverse of `WrapperClass`. */
  function RoleOf(className: string): Option<bool> {
    if !StartsWith(className, WrapperBase) then None
    else if className[|WrapperBase|..] == UserClass then Some(true)
    else if className[|WrapperBase|..] == AssistantClass then Some(false)
    else None
  }

  /** The wrapper class tells user and assistant messages apart. */
  lemma WrapperClassReadsBack(isUser: bool)
    ensures RoleOf(WrapperClass(isUser)) == Some(isUser)
  {
    var c := WrapperClass(isUser);
    assert c[..|WrapperBase|] == WrapperBase;
    assert c[|WrapperBase|..] == if isUser then UserClass else AssistantClass;
    assert |UserClass| != |AssistantClass|;
  }

  /** How the text is shown: as it is, or rendered as markdown. */
  datatype Body = Verbatim(text: string) | Markdown(source: string)

  /** A user's text is shown verbatim; only the assistant's goes through markdown. */
  function MessageBody(isUser: bool, message: string): (b: Body)
    ensures b.Verbatim? <==> isUser
    ensures (if b.Verbatim? then b.text else b.source) == message
  {
    if isUser then Verbatim(message) else Markdown(message)
  }

  // ---------------------------------------------------------------------------
  // The `code` renderer: /language-(\w+)/ on the class name
  // ---------------------------------------------------------------------------

  const LanguagePrefix: string := "language-"
  const BlockCodeClass: string := "code-block"
  const InlineCodeClass: string := "inline-code"

  /** `\w` without the `u` flag: an ASCII letter, digit or underscore. */
  predicate IsWordChar(c: char) {
    ('a' <= c <= 'z') || ('A' <= c <= 'Z') || ('0' <= c <= '9') || c == '_'
  }

  /** The pattern matches at index `i`: the prefix followed by at least one word
      character. */
  ghost predicate TagAt(s: string, i: int) {
    OccursAt(s, LanguagePrefix, i) && i + |LanguagePrefix| < |s| && IsWordChar(s[i + |LanguagePrefix|])
  }

  /** The regular expression's test, as a scan from the left: the match is unanchored. */
  predicate HasLanguageTag(s: string)
    decreases |s|
  {
    (StartsWith(s, LanguagePrefix) && |LanguagePrefix| < |s| && IsWordChar(s[|LanguagePrefix|]))
    || (|s| > 0 && HasLanguageTag(s[1..]))
  }

  /** The scan finds a match exactly when the pattern matches at some index. */
  lemma {:induction false} HasLanguageTagIff(s: string)
    ensures HasLanguageTag(s) <==> exists i :: TagAt(s, i)
    decreases |s|
  {
    var n := |LanguagePrefix|;
    if |s| > 0 {
      HasLanguageTagIff(s[1..]);
      if HasLanguageTag(s[1..]) {
        var i :| TagAt(s[1..], i);
        assert s[1..][i..i + n] == s[i + 1..i + 1 + n];
        assert TagAt(s, i + 1);
      }
      forall i | 1 <= i && TagAt(s, i) ensures TagAt(s[1..], i - 1) {
        assert s[1..][i - 1..i - 1 + n] == s[i..i + n];
      }
    }
    if StartsWith(s, LanguagePrefix) && n < |s| && IsWordChar(s[n]) {
      assert s[0..n] == s[..n];
      assert TagAt(s, 0);
    }
    forall i | TagAt(s, i) && i == 0 ensures StartsWith(s, LanguagePrefix) && n < |s| && IsWordChar(s[n]) {
      assert s[0..n] == s[..n];
    }
  }

  /** `match ? "code-block" : "inline-code"`, with a missing class read as "". */
  function CodeClass(className: Option<string>): (r: string)
    ensures r == BlockCodeClass || r == InlineCodeClass
  {
    if HasLanguageTag(className.GetOr("")) then BlockCodeClass else InlineCodeClass
  }

  /** A code element is a block exactly when its class holds "language-" followed by
      a word character somewhere; with no class it is inline. */
  lemma CodeClassIff(className: Option<string>)
    ensures CodeClass(className) == BlockCodeClass <==>
      className.Some? && exists i :: TagAt(className.value, i)
    ensures className.None? ==> CodeClass(className) == InlineCodeClass
  {
    HasLanguageTagIff(className.GetOr(""));
    if className.None? {
      assert !HasLanguageTag("");
    }
  }

  /** The match is unanchored: a class with another class before the tag is a block. */
  lemma TagAfterOtherClass()
    ensures CodeClass(Some("hljs language-ts")) == BlockCodeClass
  {
    var s := "hljs language-ts";
    assert s[5..14] == LanguagePrefix;
    assert TagAt(s, 5);
    CodeClassIff(Some(s));
  }

  /** The prefix followed by no word character at all is not a tag: "language-" alone,
      or "language-+", gives an inline element. */
  lemma BarePrefixIsInline(rest: string)
    requires forall k :: 0 <= k < |rest| ==> !IsWordChar(rest[k])
    ensures CodeClass(Some(LanguagePrefix + rest)) == InlineCodeClass
  {
    var s := LanguagePrefix + rest;
    var n := |LanguagePrefix|;
    CodeClassIff(Some(s));
    forall i | 0 < i && i + n <= |s| ensures !OccursAt(s, LanguagePrefix, i) {
      if i < n {
        assert s[i] == LanguagePrefix[i] != 'l';
      } else {
        assert s[i] == rest[i - n];
      }
      assert s[i..i + n][0] == s[i];
    }
    assert n < |s| ==> s[n] == rest[0];
  }
}

=== FILE: chat_routes.dfy ===
/** The chat router (`backend/src/routes/chat.ts`) minus the session list, which lives
    in module `Sessions`: request validation, POST `/`, GET `/history/:chatId` and
    DELETE `/session/:chatId`, each a function of the store it runs against. */
module ChatRoutes {
  import opened Wrappers
  import opened Text
  import opened Sorting
  import opened Message
  import GeminiService

  /** A JSON value in a request body, as far as `typeof ... === 'string'` cares. */
  datatype JsonValue = JString(s: string) | JNonString

  /** `req.body`; an absent field is `None`. */
  datatype ChatBody = ChatBody(message: Option<JsonValue>, chatId: Option<JsonValue>)

  /** A body that passed validation. */
  datatype ChatRequest = ChatRequest(message: string, chatId: string)

  /** `{ error, message? }` as sent with 4xx/5xx statuses. */
  datatype ErrorBody = ErrorBody(error: string, message: Option<string>)

  /** A response: 200 with a body, 400, or 500. */
  datatype Response<T> = Ok(body: T) | BadRequest(err: ErrorBody) | ServerError(err: ErrorBody) {
    function Status(): int {
      match this
      case Ok(_) => 200
      case BadRequest(_) => 400
      case ServerError(_) => 500
    }
  }

  /** The POST success body `{ reply, chatId }`. */
  datatype ChatReply = ChatReply(reply: string, chatId: string)

  const MessageRequired: string := "Message is required and must be a non-empty string"
  const ChatIdRequired: string := "Chat ID is required and must be a string"
  const ConfigurationError: string := "Configuration error"
  const KeyDetail: string := "API key is missing or invalid"
  const ProcessingFailed: string := "Failed to process message"
  const ProductionDetail: string := "An error occurred while processing your message"
  const HistoryFailed: string := "Failed to retrieve chat history"
  const DeleteFailed: string := "Failed to delete chat session"
  const DeleteConfirmed: string := "Chat session deleted successfully"

  // ---------------------------------------------------------------------------
  // validateChatRequest
  // ---------------------------------------------------------------------------

  /** A usable `message`: a string with at least one non-whitespace character. */
  predicate UsableMessage(v: Option<JsonValue>) {
    v.Some? && v.value.JString? && !IsBlank(v.value.s)
  }

  /** A usable `chatId`: any non-empty string, whitespace-only included. */
  predicate UsableChatId(v: Option<JsonValue>) {
    v.Some? && v.value.JString? && v.value.s != ""
  }

  /** `validateChatRequest`: `message` is checked before `chatId`. */
  function ValidateChatRequest(body: ChatBody): (r: Result<ChatRequest, string>)
    ensures r.Success? <==> UsableMessage(body.message) && UsableChatId(body.chatId)
    ensures r.Success? ==> r.value == ChatRequest(body.message.value.s, body.chatId.value.s)
    ensures r.Failure? ==> r.error == (if UsableMessage(body.message) then ChatIdRequired else MessageRequired)
  {
    if body.message.None? || !body.message.value.JString? then Failure(MessageRequired)
    else
      var m := body.message.value.s;
      TrimEmptyIffBlank(m);
      if m == "" || Trim(m) == "" then Failure(MessageRequired)
      else if body.chatId.None? || !body.chatId.value.JString? || body.chatId.value.s == "" then
        Failure(ChatIdRequired)
      else
        Success(ChatRequest(m, body.chatId.value.s))
  }

  // ---------------------------------------------------------------------------
  // POST /
  // ---------------------------------------------------------------------------

  /** The `catch` block of the POST handler, given the caught error's message. */
  function PostFailure(message: string, production: bool): (r: Response<ChatReply>)
    ensures r.ServerError?
    ensures r.err.error == ConfigurationError <==> Includes(message, GeminiService.KeyPattern)
    ensures Includes(message, GeminiService.KeyPattern) ==> r.err.message == Some(KeyDetail)
    ensures !Includes(message, GeminiService.KeyPattern)
      ==> r.err.message == Some(if production then ProductionDetail else message)
  {
    if Includes(message, "API key") then
      ServerError(ErrorBody(ConfigurationError, Some(KeyDetail)))
    else
      ServerError(ErrorBody(ProcessingFailed, Some(if production then ProductionDetail else message)))
  }

  /** The store after a request and the response sent. */
  datatype PostOutcome = PostOutcome(store: Store, response: Response<ChatReply>)

  /** POST `/`. `apiKey` and `sdk` stand for the environment and the Gemini call,
      `saveFault` for a failing `save()`, `now` for `Date.now()` at document creation,
      `production` for `NODE_ENV === 'production'`. */
  function PostChat(store: Store, body: ChatBody, apiKey: Option<string>, sdk: GeminiService.SdkOutcome,
                    saveFault: Option<string>, now: int, production: bool): (out: PostOutcome)
    // 400 exactly for invalid bodies; the generator and the store are not touched.
    ensures out.response.BadRequest? <==> ValidateChatRequest(body).Failure?
    // 200 exactly when the body is valid, the generator returns, and the save succeeds.
    ensures out.response.Ok? <==>
      && UsableMessage(body.message) && UsableChatId(body.chatId)
      && GeminiService.GenerateResponse(apiKey, sdk).Success?
      && saveFault.None?
    // On success exactly one record is appended and the reply and id are echoed.
    ensures out.response.Ok? ==>
      && sdk.SdkText? && !IsBlank(sdk.text)
      && out.response.body == ChatReply(sdk.text, body.chatId.value.s)
      && out.store == store + [Record(body.chatId.value.s, body.message.value.s, sdk.text, now)]
    // Every failure leaves the store as it was.
    ensures !out.response.Ok? ==> out.store == store
  {
    match ValidateChatRequest(body)
    case Failure(e) => PostOutcome(store, BadRequest(ErrorBody(e, None)))
    case Success(req) =>
      match GeminiService.GenerateResponse(apiKey, sdk)
      case Failure(m) => PostOutcome(store, PostFailure(m, production))
      case Success(reply) =>
        var draft := Draft(Some(req.chatId), Some(req.message), Some(reply), None);
        match Save(store, draft, now, saveFault)
        case Failure(e) => PostOutcome(store, PostFailure(SaveErrorMessage(e), production))
        case Success(next) => PostOutcome(next, Ok(ChatReply(reply, req.chatId)))
  }

  /** When the generator fails on a valid request, the response is "Configuration
      error" exactly when the generator classified the failure as a key error: a
      missing key, or an `Error` whose message mentions "API key". */
  lemma PostConfigurationErrorIffKeyError(store: Store, body: ChatBody, apiKey: Option<string>,
                                          sdk: GeminiService.SdkOutcome, saveFault: Option<string>,
                                          now: int, production: bool)
    requires ValidateChatRequest(body).Success?
    requires !GeminiService.KeyConfigured(apiKey) || (sdk.SdkThrows? && sdk.thrown.ErrorObject?)
    ensures var out := PostChat(store, body, apiKey, sdk, saveFault, now, production);
      && out.response.ServerError?
      && out.store == store
      && (out.response.err.error == ConfigurationError
          <==> !GeminiService.KeyConfigured(apiKey) || GeminiService.Classify(sdk.thrown) == GeminiService.KeyError)
  {
    GeminiService.FixedRewritesKeyMention();
    if GeminiService.KeyConfigured(apiKey) {
      GeminiService.KeyMentionIffKeyError(sdk.thrown);
    }
  }

  /** Any other generator failure on a valid request is "Failed to process message",
      carrying the generator's message outside production. */
  lemma PostGenerationFailure(store: Store, body: ChatBody, apiKey: Option<string>,
                              sdk: GeminiService.SdkOutcome, saveFault: Option<string>, now: int)
    requires ValidateChatRequest(body).Success?
    requires GeminiService.KeyConfigured(apiKey)
    requires sdk.SdkThrows? && sdk.thrown.ErrorObject?
    requires GeminiService.Classify(sdk.thrown) != GeminiService.KeyError
    ensures PostChat(store, body, apiKey, sdk, saveFault, now, false).response
         == ServerError(ErrorBody(ProcessingFailed, Some(GeminiService.Rewrite(sdk.thrown))))
    ensures PostChat(store, body, apiKey, sdk, saveFault, now, true).response
         == ServerError(ErrorBody(ProcessingFailed, Some(ProductionDetail)))
  {
    GeminiService.KeyMentionIffKeyError(sdk.thrown);
  }

  /** The record the POST handler builds always passes the schema's required checks,
      so on a valid request only a store fault can stop the insert: a valid body has a
      non-blank message and a non-empty id, and a generated reply is never blank. */
  lemma PostDraftAlwaysValid(body: ChatBody, reply: string, now: int)
    requires UsableMessage(body.message) && UsableChatId(body.chatId)
    requires !IsBlank(reply)
    ensures Create(Draft(Some(body.chatId.value.s), Some(body.message.value.s), Some(reply), None), now).Success?
  {
  }

  // ---------------------------------------------------------------------------
  // GET /history/:chatId
  // ---------------------------------------------------------------------------

  function Timestamp(r: Record): int {
    r.timestamp
  }

  /** `Message.find({ chatId }).sort({ timestamp: 1 })`, with equal timestamps left in
      store order (MongoDB leaves their order open). */
  function History(store: Store, id: string): (r: seq<Record>)
    ensures multiset(r) == multiset(Matching(store, id))
    ensures SortedBy(r, Timestamp)
  {
    SortBy(Matching(store, id), Timestamp)
  }

  /** History holds exactly the records of that chat, and nothing for an unknown chat. */
  lemma HistoryExactlyTheChat(store: Store, id: string)
    ensures forall x :: x in History(store, id) <==> x in store && x.chatId == id
    ensures |History(store, id)| == |Matching(store, id)|
    ensures (forall x :: x in store ==> x.chatId != id) ==> History(store, id) == []
  {
    var h := History(store, id);
    MatchingMembers(store, id);
    forall x ensures x in h <==> x in Matching(store, id) {
      assert x in h <==> x in multiset(h);
    }
    assert |h| == |multiset(h)|;
    if forall x :: x in store ==> x.chatId != id {
      if |h| > 0 {
        assert h[0] in h;
      }
    }
  }

  /** Records inserted with strictly increasing timestamps come back in insertion
      order. (Equal timestamps leave the database free to order them either way.) */
  lemma HistoryKeepsInsertionOrder(store: Store, id: string)
    requires forall i, j :: 0 <= i < j < |Matching(store, id)| ==>
      Matching(store, id)[i].timestamp < Matching(store, id)[j].timestamp
    ensures History(store, id) == Matching(store, id)
  {
    SortBySortedInput(Matching(store, id), Timestamp);
  }

  /** Sorting a sequence with a new, strictly largest key appended appends it to the
      sorted sequence. */
  lemma {:induction false} SortByAppendLargest(s: seq<Record>, x: Record)
    requires forall y :: y in s ==> y.timestamp < x.timestamp
    ensures SortBy(s + [x], Timestamp) == SortBy(s, Timestamp) + [x]
  {
    if |s| == 0 {
      assert [] + [x] == [x];
    } else {
      assert (s + [x])[1..] == s[1..] + [x];
      assert s[0] in s;
      SortByAppendLargest(s[1..], x);
      InsertBeforeLargest(s[0], SortBy(s[1..], Timestamp), x);
    }
  }

  lemma {:induction false} InsertBeforeLargest(y: Record, t: seq<Record>, x: Record)
    requires SortedBy(t, Timestamp) && SortedBy(t + [x], Timestamp)
    requires y.timestamp <= x.timestamp
    ensures Insert(y, t + [x], Timestamp) == Insert(y, t, Timestamp) + [x]
  {
    if |t| == 0 {
      assert [] + [x] == [x];
    } else if y.timestamp <= t[0].timestamp {
    } else {
      assert (t + [x])[1..] == t[1..] + [x];
      assert (t + [x])[0] == t[0];
      SortedTail(t, Timestamp);
      SortedTail(t + [x], Timestamp);
      InsertBeforeLargest(y, t[1..], x);
    }
  }

  /** End to end: after a successful POST whose `now` is later than every stored
      timestamp, the chat's history is the old history plus the new exchange. */
  lemma PostThenHistory(store: Store, body: ChatBody, apiKey: Option<string>, sdk: GeminiService.SdkOutcome,
                        now: int, production: bool)
    requires PostChat(store, body, apiKey, sdk, None, now, production).response.Ok?
    requires forall y :: y in store ==> y.timestamp < now
    ensures var id := body.chatId.value.s;
      History(PostChat(store, body, apiKey, sdk, None, now, production).store, id)
      == History(store, id) + [Record(id, body.message.value.s, sdk.text, now)]
  {
    var id := body.chatId.value.s;
    var rec := Record(id, body.message.value.s, sdk.text, now);
    MatchingAfterInsert(store, rec, id);
    MatchingMembers(store, id);
    SortByAppendLargest(Matching(store, id), rec);
  }

  /** GET `/history/:chatId`; `fault` stands for a failing query. */
  function HistoryRoute(store: Store, id: string, fault: bool): (r: Response<seq<Record>>)
    ensures r.Ok? <==> !fault
    ensures r.Ok? ==> forall x :: x in r.body <==> x in store && x.chatId == id
    ensures r.Ok? ==> multiset(r.body) == multiset(Matching(store, id))
    ensures r.Ok? ==> SortedBy(r.body, Timestamp)
    ensures r.ServerError? ==> r.err == ErrorBody(HistoryFailed, None)
  {
    HistoryExactlyTheChat(store, id);
    if fault then ServerError(ErrorBody(HistoryFailed, None)) else Ok(History(store, id))
  }

  // ---------------------------------------------------------------------------
  // DELETE /session/:chatId
  // ---------------------------------------------------------------------------

  /** `Message.deleteMany({ chatId })`. */
  function DeleteSession(store: Store, id: string): (r: Store)
    ensures forall x :: x in r <==> x in store && x.chatId != id
    ensures |r| == |store| - |Matching(store, id)|
  {
    MatchingWithoutPartition(store, id);
    Without(store, id)
  }

  /** After a delete the chat's history is empty, and every other chat's records are
      untouched, in their original order. */
  lemma {:induction false} DeleteIsolatesChat(store: Store, id: string, other: string)
    requires other != id
    ensures Matching(DeleteSession(store, id), id) == []
    ensures Matching(DeleteSession(store, id), other) == Matching(store, other)
    ensures History(DeleteSession(store, id), id) == []
  {
    if |store| > 0 {
      DeleteIsolatesChat(store[1..], id, other);
      assert Without(store, id)
          == (if store[0].chatId != id then [store[0]] else []) + Without(store[1..], id);
      MatchingAppend(if store[0].chatId != id then [store[0]] else [], Without(store[1..], id), id);
      MatchingAppend(if store[0].chatId != id then [store[0]] else [], Without(store[1..], id), other);
    }
  }

  /** Deleting a chat that has no records changes nothing (and succeeds); deleting twice
      is deleting once. */
  lemma {:induction false} DeleteUnknownIsNoOp(store: Store, id: string)
    requires forall x :: x in store ==> x.chatId != id
    ensures DeleteSession(store, id) == store
  {
    if |store| > 0 {
      assert store[0] in store;
      DeleteUnknownIsNoOp(store[1..], id);
      assert store == [store[0]] + store[1..];
    }
  }

  lemma DeleteIdempotent(store: Store, id: string)
    ensures DeleteSession(DeleteSession(store, id), id) == DeleteSession(store, id)
  {
    DeleteUnknownIsNoOp(DeleteSession(store, id), id);
  }

  /** How `deleteMany` ends. It removes documents one by one and is not atomic, so a
      failure can come after any of the chat's records are already gone: `removed`
      holds the store positions deleted before the error. */
  datatype DeleteOutcome = AllDeleted | FailedAfter(removed: set<int>)

  /** The store after a delete of `id` that removed exactly the chat's records at the
      positions in `removed`; `from` is the position of `store[0]`. */
  function Survivors(store: Store, id: string, removed: set<int>, from: int): (r: Store)
    ensures forall x :: x in r ==> x in store
    ensures forall x :: x in store && x.chatId != id ==> x in r
    ensures |Without(store, id)| <= |r| <= |store|
    decreases |store|
  {
    if |store| == 0 then []
    else
      var rest := Survivors(store[1..], id, removed, from + 1);
      assert forall x :: x in store[1..] ==> x in store;
      if store[0].chatId == id && from in removed then rest else [store[0]] + rest
  }

  /** An interrupted delete leaves every other chat's records exactly as they were:
      the same records, as many of each, in the same order. */
  lemma {:induction false} SurvivorsIsolates(store: Store, id: string, removed: set<int>, from: int)
    ensures forall c :: c != id ==> Matching(Survivors(store, id, removed, from), c) == Matching(store, c)
    decreases |store|
  {
    if |store| > 0 {
      SurvivorsIsolates(store[1..], id, removed, from + 1);
      var rest := Survivors(store[1..], id, removed, from + 1);
      forall c | c != id ensures Matching(Survivors(store, id, removed, from), c) == Matching(store, c) {
        if !(store[0].chatId == id && from in removed) {
          MatchingAppend([store[0]], rest, c);
          assert Matching([store[0]], c) == if store[0].chatId == c then [store[0]] else [];
        }
      }
    }
  }

  /** A delete that failed before removing anything leaves the store as it was. */
  lemma {:induction false} SurvivorsNoneRemoved(store: Store, id: string, from: int)
    ensures Survivors(store, id, {}, from) == store
    decreases |store|
  {
    if |store| > 0 {
      SurvivorsNoneRemoved(store[1..], id, from + 1);
      assert store == [store[0]] + store[1..];
    }
  }

  /** A failure after every one of the chat's records was removed leaves what a
      successful delete leaves. */
  lemma {:induction false} SurvivorsAllRemoved(store: Store, id: string, removed: set<int>, from: int)
    requires forall k :: 0 <= k < |store| && store[k].chatId == id ==> from + k in removed
    ensures Survivors(store, id, removed, from) == Without(store, id)
    decreases |store|
  {
    if |store| > 0 {
      forall k | 0 <= k < |store[1..]| && store[1..][k].chatId == id ensures from + 1 + k in removed {
        assert store[1..][k] == store[k + 1];
      }
      SurvivorsAllRemoved(store[1..], id, removed, from + 1);
      assert store[0].chatId == id ==> from + 0 in removed;
    }
  }

  /** DELETE `/session/:chatId`. A 200 means the chat is gone; a 500 promises only that
      the store lies between the old store and the fully deleted one: nothing was added
      and no other chat's record was touched. */
  function DeleteRoute(store: Store, id: string, outcome: DeleteOutcome): (out: (Store, Response<string>))
    ensures out.1.Ok? <==> outcome.AllDeleted?
    ensures out.1.Ok? ==> out.1.body == DeleteConfirmed && forall x :: x in out.0 <==> x in store && x.chatId != id
    ensures out.1.Ok? ==> out.0 == DeleteSession(store, id)
    ensures out.1.ServerError? ==> out.1.err == ErrorBody(DeleteFailed, None)
    ensures out.1.ServerError? ==> forall c :: c != id ==> Matching(out.0, c) == Matching(store, c)
    ensures out.1.ServerError? ==>
      && (forall x :: x in out.0 ==> x in store)
      && (forall x :: x in store && x.chatId != id ==> x in out.0)
      && |DeleteSession(store, id)| <= |out.0| <= |store|
  {
    match outcome
    case AllDeleted => (DeleteSession(store, id), Ok(DeleteConfirmed))
    case FailedAfter(removed) =>
      SurvivorsIsolates(store, id, removed, 0);
      (Survivors(store, id, removed, 0), ServerError(ErrorBody(DeleteFailed, None)))
  }

  /** The two ends of a failed delete: failing before any removal keeps the store, and
      failing after the last removal leaves what a success would. */
  lemma FailedDeleteBounds(store: Store, id: string, removed: set<int>)
    requires forall k :: 0 <= k < |store| && store[k].chatId == id ==> k in removed
    ensures DeleteRoute(store, id, FailedAfter({})).0 == store
    ensures DeleteRoute(store, id, FailedAfter(removed)).0 == DeleteRoute(store, id, AllDeleted).0
  {
    SurvivorsNoneRemoved(store, id, 0);
    SurvivorsAllRemoved(store, id, removed, 0);
  }
}

=== FILE: chat_view.dfy ===
/** The chat panel (`frontend/src/components/Chat.tsx`): the message list it shows,
    how loading a chat's history replaces it, and the optimistic update a send makes
    and then completes or rolls back. Network calls become their outcomes, passed in;
    sends are sequential. */
module ChatView {
  import opened Wrappers
  import opened Text

  /** One exchange as the panel holds it. */
  datatype Entry = Entry(user: string, bot: string)

  /** The panel's state: `messages`, `loading`, `error`. */
  datatype ChatState = ChatState(messages: seq<Entry>, loading: bool, error: Option<string>)

  const InitialChat := ChatState([], false, None)

  // ---------------------------------------------------------------------------
  // Loading the history when the chat id changes
  // ---------------------------------------------------------------------------

  /** What GET `/history/:chatId` gave: an array body, some other body, or a failure. */
  datatype HistoryReply = ArrayBody(entries: seq<Entry>) | OtherBody | FetchFailed

  /** The history effect: no chat id empties the list; otherwise an array body replaces
      it, and anything else leaves it as it was. */
  function LoadHistory(messages: seq<Entry>, chatId: Option<string>, reply: HistoryReply): (r: seq<Entry>)
    ensures !Truthy(chatId) ==> r == []
    ensures Truthy(chatId) && reply.ArrayBody? ==> r == reply.entries
    ensures Truthy(chatId) && !reply.ArrayBody? ==> r == messages
  {
    if !Truthy(chatId) then []
    else match reply
      case ArrayBody(entries) => entries
      case _ => messages
  }

  // ---------------------------------------------------------------------------
  // The chat id a send posts to
  // ---------------------------------------------------------------------------

  const ChatIdPrefix: string := "chat-"

  /** `chat-${Date.now()}`. */
  function FreshChatId(now: nat): string {
    ChatIdPrefix + NatToString(now)
  }

  /** A fresh id names its creation time: it can be read back, so two different
      instants never give the same id. */
  lemma FreshChatIdReadsBack(now: nat)
    ensures var id := FreshChatId(now);
      |id| > |ChatIdPrefix| && id[..|ChatIdPrefix|] == ChatIdPrefix
      && ParseInt(id[|ChatIdPrefix|..]) == Some(now as int)
  {
    var id := FreshChatId(now);
    assert id[|ChatIdPrefix|..] == NatToString(now) == IntToString(now);
    IntToStringRoundTrip(now);
  }

  lemma FreshChatIdInjective(a: nat, b: nat)
    requires FreshChatId(a) == FreshChatId(b)
    ensures a == b
  {
    FreshChatIdReadsBack(a);
    FreshChatIdReadsBack(b);
  }

  /** `chatId || chat-${Date.now()}`: the id is kept when it is a non-empty string. */
  function PostTarget(chatId: Option<string>, now: nat): (id: string)
    ensures id != []
    ensures Truthy(chatId) ==> id == chatId.value
    ensures !Truthy(chatId) ==> id == FreshChatId(now)
  {
    if Truthy(chatId) then chatId.value else FreshChatId(now)
  }

  /** A panel with no chat id posts each message to a new chat: two sends at different
      instants never share an id, so such a conversation's history is scattered. */
  lemma UnsetChatScattersSends(a: nat, b: nat)
    requires a != b
    ensures PostTarget(None, a) != PostTarget(None, b)
  {
    if FreshChatId(a) == FreshChatId(b) {
      FreshChatIdInjective(a, b);
    }
  }

  // ---------------------------------------------------------------------------
  // Sending a message
  // ---------------------------------------------------------------------------

  /** How the POST ended: a body (with its `reply` field, if any), an HTTP error
      response (its status and its body's `error` field, if any), or no response. */
  datatype PostOutcome =
    | Replied(reply: Option<string>)
    | HttpError(status: int, errorField: Option<string>)
    | NoResponse

  const ServerErrorPrefix: string := "Server error: "
  const StatusSeparator: string := " - "
  const UnknownError: string := "Unknown error"
  const ConnectionFailed: string := "Failed to connect to the server. Please try again later."

  /** The reply is usable exactly when it is a non-empty string. */
  predicate Delivered(o: PostOutcome) {
    o.Replied? && Truthy(o.reply)
  }

  /** The text `setError` receives. A body without a reply throws a plain `Error`
      inside the `try`, which is no axios error, so it gets the connection message. */
  function ErrorText(o: PostOutcome): string {
    match o
    case HttpError(status, field) =>
      ServerErrorPrefix + IntToString(status) + StatusSeparator
        + (if Truthy(field) then field.value else UnknownError)
    case _ => ConnectionFailed
  }

  /** The first step of `handleSendMessage`: loading on, error cleared, and a
      placeholder exchange with an empty reply appended. */
  function BeginSend(st: ChatState, message: string): (r: ChatState)
    ensures r.loading && r.error == None
    ensures r.messages == st.messages + [Entry(message, "")]
  {
    ChatState(st.messages + [Entry(message, "")], true, None)
  }

  /** `slice(0, -1)`: everything but the last element (nothing from an empty list). */
  function DropLast<T>(s: seq<T>): (r: seq<T>)
    ensures |s| > 0 ==> r == s[..|s| - 1]
    ensures |s| == 0 ==> r == []
  {
    if |s| == 0 then [] else s[..|s| - 1]
  }

  /** The rest of `handleSendMessage`: a delivered reply replaces the last entry; any
      other outcome records the error text and drops the last entry; `loading` is
      turned off on both paths. */
  function FinishSend(st: ChatState, message: string, o: PostOutcome): (r: ChatState)
    ensures !r.loading
    ensures Delivered(o) && |st.messages| > 0 ==>
      r.messages == st.messages[..|st.messages| - 1] + [Entry(message, o.reply.value)]
    ensures Delivered(o) ==> r.error == st.error
    ensures !Delivered(o) ==> r.messages == DropLast(st.messages) && r.error == Some(ErrorText(o))
  {
    if Delivered(o) then
      var m := st.messages;
      var updated := if |m| == 0 then m else m[|m| - 1 := Entry(message, o.reply.value)];
      assert |m| > 0 ==> updated == m[..|m| - 1] + [Entry(message, o.reply.value)];
      ChatState(updated, false, st.error)
    else
      ChatState(DropLast(st.messages), false, Some(ErrorText(o)))
  }

  /** One whole send, as the panel runs it. */
  function HandleSend(st: ChatState, message: string, o: PostOutcome): ChatState {
    FinishSend(BeginSend(st, message), message, o)
  }

  /** A delivered reply grows the list by exactly one exchange, at the end, holding the
      message and the reply; the earlier entries are untouched and no error shows. */
  lemma SendDelivered(st: ChatState, message: string, o: PostOutcome)
    requires Delivered(o)
    ensures var r := HandleSend(st, message, o);
      && |r.messages| == |st.messages| + 1
      && r.messages[..|st.messages|] == st.messages
      && r.messages[|st.messages|] == Entry(message, o.reply.value)
      && !r.loading && r.error == None
  {
    var b := BeginSend(st, message);
    assert b.messages[..|b.messages| - 1] == st.messages;
  }

  /** Any other outcome restores the list the send started from and shows the error. */
  lemma SendFailedRollsBack(st: ChatState, message: string, o: PostOutcome)
    requires !Delivered(o)
    ensures var r := HandleSend(st, message, o);
      r.messages == st.messages && !r.loading && r.error == Some(ErrorText(o))
  {
    var b := BeginSend(st, message);
    assert b.messages[..|b.messages| - 1] == st.messages;
  }

  // ---------------------------------------------------------------------------
  // Reading the error text back
  // ---------------------------------------------------------------------------

  /** The characters of `s` before its first space. */
  function UpToSpace(s: string): (r: string)
    ensures |r| <= |s| && r == s[..|r|]
    ensures ' ' !in r
    ensures |r| < |s| ==> s[|r|] == ' '
  {
    if |s| == 0 || s[0] == ' ' then []
    else [s[0]] + UpToSpace(s[1..])
  }

  lemma {:induction false} UpToSpaceOfSpaceFree(a: string, b: string)
    requires ' ' !in a
    ensures UpToSpace(a + " " + b) == a
  {
    if |a| > 0 {
      assert (a + " " + b)[1..] == a[1..] + " " + b;
      assert a[0] in a;
      UpToSpaceOfSpaceFree(a[1..], b);
      assert a == [a[0]] + a[1..];
    } else {
      assert (a + " " + b)[0] == ' ';
    }
  }

  /** The HTTP status an error text reports, if it has the server-error shape. */
  function ReportedStatus(text: string): Option<int> {
    if |text| >= |ServerErrorPrefix| && text[..|ServerErrorPrefix|] == ServerErrorPrefix then
      ParseInt(UpToSpace(text[|ServerErrorPrefix|..]))
    else None
  }

  /** The text names the status of an error response, and the connection message
      names none: the two kinds of failure stay distinguishable. */
  lemma ErrorTextReportsStatus(o: PostOutcome)
    ensures o.HttpError? ==> ReportedStatus(ErrorText(o)) == Some(o.status)
    ensures !o.HttpError? ==> ReportedStatus(ErrorText(o)) == None
  {
    if o.HttpError? {
      var digits := IntToString(o.status);
      var detail := if Truthy(o.errorField) then o.errorField.value else UnknownError;
      var text := ErrorText(o);
      assert text == ServerErrorPrefix + (digits + " " + ("- " + detail));
      assert text[|ServerErrorPrefix|..] == digits + " " + ("- " + detail);
      IntToStringChars(o.status, ' ');
      UpToSpaceOfSpaceFree(digits, "- " + detail);
      IntToStringRoundTrip(o.status);
    } else {
      var t := ConnectionFailed;
      assert t[0] == "Failed to connect "[0] == 'F';
      assert ServerErrorPrefix[0] == 'S';
      assert t[..|ServerErrorPrefix|][0] == t[0];
    }
  }
}

=== FILE: code_block.dfy ===
/** The code block (`frontend/src/components/CodeBlock.tsx`): the text the copy button
    copies out of the rendered children, what a click does, and when the header with
    the language label and the button is shown. The clipboard and the fallback
    `textarea` become outcomes passed in. */
module CodeBlock {
  import opened Wrappers
  import opened Text

  /** The children a code block receives: a string, a number, an element (with its own
      children), an array of nodes, or anything else (a boolean, `null`, ...). */
  datatype Node =
    | TextNode(s: string)
    | NumberNode(n: int)
    | Element(children: Node)
    | ArrayNode(items: seq<Node>)
    | OtherNode

  /** `join("")`. */
  function Join(parts: seq<string>): string {
    if |parts| == 0 then "" else parts[0] + Join(parts[1..])
  }

  /** `extractTextContent`: strings as they are, numbers in decimal, elements through
      their children, arrays joined with no separator, anything else as nothing. */
  function ExtractText(node: Node): string {
    match node
    case TextNode(s) => s
    case NumberNode(n) => IntToString(n)
    case Element(children) => ExtractText(children)
    case ArrayNode(items) => Join(seq(|items|, i requires 0 <= i < |items| => ExtractText(items[i])))
    case OtherNode => ""
  }

  // ---------------------------------------------------------------------------
  // The text as the leaves of the tree, read left to right
  // ---------------------------------------------------------------------------

  function Flatten(xss: seq<seq<string>>): seq<string> {
    if |xss| == 0 then [] else xss[0] + Flatten(xss[1..])
  }

  /** The text-bearing leaves of a node in document order: the reference reading of
      "the text content". */
  function Leaves(node: Node): seq<string> {
    match node
    case TextNode(s) => [s]
    case NumberNode(n) => [IntToString(n)]
    case Element(children) => Leaves(children)
    case ArrayNode(items) => Flatten(seq(|items|, i requires 0 <= i < |items| => Leaves(items[i])))
    case OtherNode => []
  }

  lemma {:induction false} JoinAppend(a: seq<string>, b: seq<string>)
    ensures Join(a + b) == Join(a) + Join(b)
  {
    if |a| > 0 {
      assert (a + b)[1..] == a[1..] + b;
      JoinAppend(a[1..], b);
    } else {
      assert a + b == b;
    }
  }

  /** Joining a flattened list is joining the joins of its pieces. */
  lemma {:induction false} JoinFlatten(xss: seq<seq<string>>)
    ensures Join(Flatten(xss)) == Join(seq(|xss|, i requires 0 <= i < |xss| => Join(xss[i])))
  {
    var joins := seq(|xss|, i requires 0 <= i < |xss| => Join(xss[i]));
    if |xss| > 0 {
      JoinAppend(xss[0], Flatten(xss[1..]));
      JoinFlatten(xss[1..]);
      assert joins[1..] == seq(|xss[1..]|, i requires 0 <= i < |xss[1..]| => Join(xss[1..][i]));
    }
  }

  /** The extracted text is the leaves' texts concatenated in document order: nothing
      is dropped, repeated or reordered, and wrapping in elements or arrays adds no
      separators. */
  lemma {:induction false} ExtractTextIsLeaves(node: Node)
    ensures ExtractText(node) == Join(Leaves(node))
  {
    match node
    case TextNode(s) =>
      assert Join([s]) == s + Join([]);
    case NumberNode(n) =>
      assert Join([IntToString(n)]) == IntToString(n) + Join([]);
    case Element(children) =>
      ExtractTextIsLeaves(children);
    case ArrayNode(items) =>
      var parts := seq(|items|, i requires 0 <= i < |items| => Leaves(items[i]));
      forall i | 0 <= i < |items| ensures ExtractText(items[i]) == Join(parts[i]) {
        ExtractTextIsLeaves(items[i]);
      }
      JoinFlatten(parts);
      assert seq(|items|, i requires 0 <= i < |items| => ExtractText(items[i]))
        == seq(|parts|, i requires 0 <= i < |parts| => Join(parts[i]));
    case OtherNode =>
  }

  /** Splitting an array of children anywhere splits its text at the same place. */
  lemma ExtractTextSplits(a: seq<Node>, b: seq<Node>)
    ensures ExtractText(ArrayNode(a + b)) == ExtractText(ArrayNode(a)) + ExtractText(ArrayNode(b))
  {
    var ab := a + b;
    var ta := seq(|a|, i requires 0 <= i < |a| => ExtractText(a[i]));
    var tb := seq(|b|, i requires 0 <= i < |b| => ExtractText(b[i]));
    assert seq(|ab|, i requires 0 <= i < |ab| => ExtractText(ab[i])) == ta + tb;
    JoinAppend(ta, tb);
  }

  // ---------------------------------------------------------------------------
  // The copy button
  // ---------------------------------------------------------------------------

  /** The text a click puts on the clipboard: nothing when the extracted text is blank,
      otherwise the extracted text trimmed. Both the clipboard path and the fallback
      copy the same trimmed text. */
  function CopyText(children: Node): (r: Option<string>)
    ensures r.None? <==> IsBlank(ExtractText(children))
  {
    var text := ExtractText(children);
    TrimEmptyIffBlank(text);
    if Trim(text) == "" then None else Some(Trim(text))
  }

  /** `c` sits somewhere in `text` with only whitespace before and after it. */
  ghost predicate PieceBetweenBlanks(c: string, text: string) {
    exists i :: 0 <= i <= |text| - |c| && text[i..i + |c|] == c && IsBlank(text[..i]) && IsBlank(text[i + |c|..])
  }

  /** The copied text is non-empty, has no whitespace at either end, is a contiguous
      piece of the extracted text, and what it drops around it is whitespace only. */
  lemma CopyTextShape(children: Node, c: string)
    requires CopyText(children) == Some(c)
    ensures c != [] && !IsJsWhitespace(c[0]) && !IsJsWhitespace(c[|c| - 1])
    ensures Trim(c) == c
    ensures PieceBetweenBlanks(c, ExtractText(children))
  {
    var text := ExtractText(children);
    var t := TrimStart(text);
    assert c == TrimEnd(t);
    TrimPieces(text, t, c);
    var i := |text| - |t|;
    assert 0 <= i <= |text| - |c| && text[i..i + |c|] == c && IsBlank(text[..i]) && IsBlank(text[i + |c|..]);
    TrimShape(text);
    TrimTrimmed(c);
  }

  /** How writing to the clipboard went: the clipboard API succeeded, or it threw and
      the `textarea` fallback then succeeded or threw too. */
  datatype ClipboardOutcome = Written | FallbackWritten | BothFailed

  /** `handleCopyCode`: returns the new `codeCopied` flag and the text placed on the
      clipboard, if any. A blank text changes nothing; if both ways of copying throw,
      nothing is copied and the flag stays. */
  function HandleCopy(copied: bool, children: Node, outcome: ClipboardOutcome): (r: (bool, Option<string>))
    ensures r.1.Some? <==> CopyText(children).Some? && outcome != BothFailed
    ensures r.1.Some? ==> r.1 == CopyText(children) && r.0
    ensures r.1.None? ==> r.0 == copied
  {
    match CopyText(children)
    case None => (copied, None)
    case Some(text) =>
      if outcome == BothFailed then (copied, None) else (true, Some(text))
  }

  // ---------------------------------------------------------------------------
  // The header
  // ---------------------------------------------------------------------------

  const CodeBlockClass: string := "code-block"
  const DefaultLanguageLabel: string := "code"

  /** `className?.includes("code-block") || !!language`: the header is shown. */
  predicate IsCodeBlock(className: Option<string>, language: Option<string>) {
    (className.Some? && Includes(className.value, CodeBlockClass)) || Truthy(language)
  }

  /** The header appears exactly when the class names a code block somewhere in it or a
      non-empty language is given. */
  lemma IsCodeBlockIff(className: Option<string>, language: Option<string>)
    ensures IsCodeBlock(className, language) <==>
      (className.Some? && exists i :: OccursAt(className.value, CodeBlockClass, i))
      || (language.Some? && language.value != [])
  {
    if className.Some? {
      IncludesIffOccurs(className.value, CodeBlockClass);
    }
  }

  /** `language || "code"`: the text of the language label. */
  function LanguageLabel(language: Option<string>): (r: string)
    ensures r != []
    ensures Truthy(language) ==> r == language.value
    ensures !Truthy(language) ==> r == DefaultLanguageLabel
  {
    if Truthy(language) then language.value else DefaultLanguageLabel
  }
}

=== FILE: gemini_service.dfy ===
/** `generateResponse` (`backend/src/services/geminiService.ts`): the call into the
    Gemini SDK is an oracle; what is modelled is the blank-reply guard and the way
    every failure is rewritten into one of four messages. */
module GeminiService {
  import opened Wrappers
  import opened Text

  /** A value thrown inside `generateResponse`'s `try` block. */
  datatype Thrown =
    | ErrorObject(message: string)   // an `Error` instance
    | Nullish(isNull: bool)          // `null` or `undefined`, which have no properties at all
    | OtherValue(rendered: string)   // any other value: its `message` property as a template
                                     // literal renders it ("undefined" when it has none)

  /** What the SDK call chain (`generateContent`, `response`, `text()`) does. */
  datatype SdkOutcome = SdkText(text: string) | SdkThrows(thrown: Thrown)

  const KeyPattern: string := "API key"
  const QuotaPattern: string := "quota"
  const ModelPattern: string := "model"

  /** Thrown when the environment has no key. */
  const KeyMissingInternal: string := "Gemini " + KeyPattern + " is not configured"
  /** Thrown when the SDK returns empty or whitespace-only text. */
  const EmptyReplyInternal: string := EmptyResponse + FromGemini

  /** The four messages `generateResponse` rethrows with. */
  const KeyInvalidMessage: string := "Gemini " + KeyPattern + " is missing or invalid"
  const QuotaMessage: string := QuotaExceeded + TryAgainLater
  const ModelMessage: string := ModelUnavailable + CheckModelName
  const FailurePrefix: string := "Failed to generate response: "

  /** The halves of the longer messages. The solver checks a character's absence from
      a short literal cheaply but not from a long one, so the proofs below look at each
      half on its own. */
  const EmptyResponse: string := "Empty response "
  const FromGemini: string := "from Gemini API"
  const QuotaExceeded: string := "Gemini API quota exceeded. "
  const TryAgainLater: string := "Please try again later."
  const ModelUnavailable: string := "Gemini model not available. "
  const CheckModelName: string := "Please check the model name."
  const CannotRead: string := "Cannot read properties of "
  const ReadingMessage: string := " (reading 'message')"

  /** The class a caught value falls into. */
  datatype ErrorKind = KeyError | QuotaError | ModelError | OtherError

  /** Only `Error` instances are inspected, by case-sensitive substring tests in
      priority order: "API key" before "quota" before "model". */
  function Classify(t: Thrown): ErrorKind {
    match t
    case Nullish(_) => OtherError
    case OtherValue(_) => OtherError
    case ErrorObject(m) =>
      if Includes(m, KeyPattern) then KeyError
      else if Includes(m, QuotaPattern) then QuotaError
      else if Includes(m, ModelPattern) then ModelError
      else OtherError
  }

  /** `${(error as Error).message}` for a value that has properties. */
  function MessageText(t: Thrown): string
    requires !t.Nullish?
  {
    match t
    case ErrorObject(m) => m
    case OtherValue(text) => text
  }

  /** Reading `.message` of `null` or `undefined` inside the `catch` block throws a
      `TypeError` there, so that error, not the generic rewrite, leaves the function.
      Its text is V8's wording. */
  function NullishMessage(isNull: bool): string {
    CannotRead + (if isNull then "null" else "undefined") + ReadingMessage
  }

  /** The message of the `Error` that leaves the `catch` block. */
  function Rewrite(t: Thrown): string {
    if t.Nullish? then NullishMessage(t.isNull)
    else match Classify(t)
      case KeyError => KeyInvalidMessage
      case QuotaError => QuotaMessage
      case ModelError => ModelMessage
      case OtherError => FailurePrefix + MessageText(t)
  }

  /** `!GEMINI_API_KEY`: unset or empty. */
  predicate KeyConfigured(apiKey: Option<string>) {
    apiKey.Some? && apiKey.value != ""
  }

  /** The `try` block of `generateResponse`: the text it returns, or what it throws. */
  function Attempt(apiKey: Option<string>, sdk: SdkOutcome): (r: Result<string, Thrown>)
    ensures r.Success? <==> KeyConfigured(apiKey) && sdk.SdkText? && !IsBlank(sdk.text)
  {
    if !KeyConfigured(apiKey) then Failure(ErrorObject(KeyMissingInternal))
    else match sdk
      case SdkThrows(t) => Failure(t)
      case SdkText(text) =>
        TrimEmptyIffBlank(text);
        if text == [] || Trim(text) == [] then Failure(ErrorObject(EmptyReplyInternal))
        else Success(text)
  }

  /** `generateResponse(message)`: the reply text, or the message of the `Error` it
      throws. The SDK is consulted only when a key is configured. */
  function GenerateResponse(apiKey: Option<string>, sdk: SdkOutcome): (r: Result<string, string>)
    // A normal return is exactly the SDK's non-blank text.
    ensures r.Success? <==> KeyConfigured(apiKey) && sdk.SdkText? && !IsBlank(sdk.text)
    ensures r.Success? ==> r.value == sdk.text && r.value != [] && Trim(r.value) != []
    // The missing key and the blank reply surface as fixed messages.
    ensures !KeyConfigured(apiKey) ==> r == Failure(KeyInvalidMessage)
    ensures KeyConfigured(apiKey) && sdk.SdkText? && IsBlank(sdk.text)
      ==> r == Failure(FailurePrefix + EmptyReplyInternal)
    ensures KeyConfigured(apiKey) && sdk.SdkThrows? ==> r == Failure(Rewrite(sdk.thrown))
    // A thrown `null` or `undefined` escapes as the catch block's own `TypeError`.
    ensures KeyConfigured(apiKey) && sdk.SdkThrows? && sdk.thrown.Nullish?
      ==> r == Failure(NullishMessage(sdk.thrown.isNull))
  {
    KnownMessagesClassify();
    match Attempt(apiKey, sdk)
    case Success(text) =>
      TrimEmptyIffBlank(text);
      Success(text)
    case Failure(t) => Failure(Rewrite(t))
  }

  /** How the fixed internal messages are classified. */
  lemma KnownMessagesClassify()
    ensures Classify(ErrorObject(KeyMissingInternal)) == KeyError
    ensures Classify(ErrorObject(EmptyReplyInternal)) == OtherError
  {
    KeyMissingMentionsKey();
    EmptyReplyUnclassified();
  }

  lemma KeyMissingMentionsKey()
    ensures Includes(KeyMissingInternal, KeyPattern)
  {
    assert KeyMissingInternal == "Gemini " + KeyPattern + " is not configured";
    IncludesBetween("Gemini ", KeyPattern, " is not configured");
  }

  lemma EmptyReplyUnclassified()
    ensures !Includes(EmptyReplyInternal, KeyPattern)
    ensures !Includes(EmptyReplyInternal, QuotaPattern)
    ensures !Includes(EmptyReplyInternal, ModelPattern)
  {
    assert 'k' !in EmptyResponse && 'k' !in FromGemini;
    assert 'q' !in EmptyResponse && 'q' !in FromGemini;
    assert 'd' !in EmptyResponse && 'd' !in FromGemini;
    IncludedCharsOccur(EmptyReplyInternal, KeyPattern, 'k');
    IncludedCharsOccur(EmptyReplyInternal, QuotaPattern, 'q');
    IncludedCharsOccur(EmptyReplyInternal, ModelPattern, 'd');
  }

  /** Of the three fixed rewrites only the key message mentions "API key". */
  lemma FixedRewritesKeyMention()
    ensures Includes(KeyInvalidMessage, KeyPattern)
    ensures !Includes(QuotaMessage, KeyPattern)
    ensures !Includes(ModelMessage, KeyPattern)
  {
    KeyInvalidMentionsKey();
    QuotaMessageOmitsKey();
    ModelMessageOmitsKey();
  }

  lemma KeyInvalidMentionsKey()
    ensures Includes(KeyInvalidMessage, KeyPattern)
  {
    assert KeyInvalidMessage == "Gemini " + KeyPattern + " is missing or invalid";
    IncludesBetween("Gemini ", KeyPattern, " is missing or invalid");
  }

  lemma QuotaMessageOmitsKey()
    ensures !Includes(QuotaMessage, KeyPattern)
  {
    assert 'k' !in QuotaExceeded;
    assert 'k' !in TryAgainLater;
    IncludedCharsOccur(QuotaMessage, KeyPattern, 'k');
  }

  lemma ModelMessageOmitsKey()
    ensures !Includes(ModelMessage, KeyPattern)
  {
    assert 'A' !in ModelUnavailable;
    assert 'A' !in CheckModelName;
    IncludedCharsOccur(ModelMessage, KeyPattern, 'A');
  }

  /** `a + p + b` includes `p`. */
  lemma IncludesBetween(a: string, p: string, b: string)
    ensures Includes(a + p + b, p)
  {
    assert (a + p + b)[|a|..|a| + |p|] == p;
    assert OccursAt(a + p + b, p, |a|);
    IncludesIffOccurs(a + p + b, p);
  }

  /** Every character of an occurrence of `p` is a character of `s`. */
  lemma OccurrenceChars(s: string, p: string, i: int, c: char)
    requires OccursAt(s, p, i) && c in p
    ensures c in s
  {
    var j :| 0 <= j < |p| && p[j] == c;
    assert s[i + j] == s[i..i + |p|][j];
  }

  /** A string that includes `p` contains each of `p`'s characters; so a string
      lacking one of them cannot include `p`. */
  lemma IncludedCharsOccur(s: string, p: string, c: char)
    ensures Includes(s, p) && c in p ==> c in s
  {
    IncludesIffOccurs(s, p);
    if Includes(s, p) && c in p {
      var i :| OccursAt(s, p, i);
      OccurrenceChars(s, p, i, c);
    }
  }

  /** The rewritten message mentions "API key" exactly when the caught message did:
      the three fixed rewrites decide by it, and the generic prefix adds no "A". A
      thrown `null` or `undefined` never leads to a mention. */
  lemma RewriteKeepsKeyMention(t: Thrown)
    ensures !t.Nullish? ==> (Includes(Rewrite(t), KeyPattern) <==> Includes(MessageText(t), KeyPattern))
    ensures t.Nullish? ==> !Includes(Rewrite(t), KeyPattern)
  {
    FixedRewritesKeyMention();
    if t.Nullish? {
      assert 'k' !in CannotRead && 'k' !in "null" && 'k' !in "undefined" && 'k' !in ReadingMessage;
      IncludedCharsOccur(NullishMessage(t.isNull), KeyPattern, 'k');
    } else if Classify(t) == OtherError {
      FailurePrefixLacksKeyStart();
      IncludesSkipsPrefix(FailurePrefix, MessageText(t), KeyPattern);
    }
  }

  /** The generic prefix has no "A", the first character of "API key". */
  lemma FailurePrefixLacksKeyStart()
    ensures forall k :: 0 <= k < |FailurePrefix| ==> FailurePrefix[k] != KeyPattern[0]
  {
    assert 'A' !in FailurePrefix;
    forall k | 0 <= k < |FailurePrefix| ensures FailurePrefix[k] != 'A' {
      assert FailurePrefix[k] in FailurePrefix;
    }
  }

  /** For an `Error` instance the rewritten message mentions "API key" exactly when the
      error was classified as a key error: no other rewrite mentions it. */
  lemma KeyMentionIffKeyError(t: Thrown)
    requires t.ErrorObject?
    ensures Includes(Rewrite(t), KeyPattern) <==> Classify(t) == KeyError
  {
    RewriteKeepsKeyMention(t);
  }

  /** The class a caller can read off a rethrown message: each fixed rewrite names its
      class, and any other message is unclassified. */
  function ClassOf(msg: string): ErrorKind {
    if msg == KeyInvalidMessage then KeyError
    else if msg == QuotaMessage then QuotaError
    else if msg == ModelMessage then ModelError
    else OtherError
  }

  /** The rethrown message determines the class the caught value fell into, and for an
      unclassified value that has properties it still carries the original text after
      the generic prefix: the fixed rewrites all begin with "G", while the generic
      prefix begins with "F" and the `TypeError` text with "C". */
  lemma RewriteRecoversClass(t: Thrown)
    ensures ClassOf(Rewrite(t)) == Classify(t)
    ensures !t.Nullish? && Classify(t) == OtherError ==>
      StartsWith(Rewrite(t), FailurePrefix) && Rewrite(t)[|FailurePrefix|..] == MessageText(t)
  {
    assert KeyInvalidMessage[0] == 'G' && QuotaMessage[0] == 'G' && ModelMessage[0] == 'G';
    assert |KeyInvalidMessage| != |QuotaMessage| && |KeyInvalidMessage| != |ModelMessage|;
    assert |QuotaMessage| != |ModelMessage|;
    if t.Nullish? {
      assert NullishMessage(t.isNull)[0] == 'C';
    } else if Classify(t) == OtherError {
      var r := FailurePrefix + MessageText(t);
      assert r[0] == 'F';
      assert r[..|FailurePrefix|] == FailurePrefix;
    }
  }
}

=== FILE: message.dfy ===
/** The persisted message record (`backend/src/models/message.ts`) and the message
    collection, modelled as the sequence of records in insertion order. */
module Message {
  import opened Wrappers

  /** One stored user/bot exchange. Timestamps are milliseconds since the epoch. */
  datatype Record = Record(chatId: string, user: string, bot: string, timestamp: int)

  /** The message collection in insertion (natural) order. */
  type Store = seq<Record>

  /** The schema's fields, in declaration order. */
  datatype Field = ChatIdField | UserField | BotField | TimestampField

  /** The object handed to `new Message({...})`; an absent or null field is `None`. */
  datatype Draft = Draft(chatId: Option<string>, user: Option<string>, bot: Option<string>, timestamp: Option<int>)

  /** Mongoose's `required` check on a string path: absent, null and '' all fail. */
  predicate Provided(f: Option<string>) {
    f.Some? && f.value != ""
  }

  /** The required paths the draft leaves unset. */
  function MissingFields(d: Draft): (missing: set<Field>)
    ensures TimestampField !in missing
    ensures ChatIdField in missing <==> !Provided(d.chatId)
    ensures UserField in missing <==> !Provided(d.user)
    ensures BotField in missing <==> !Provided(d.bot)
  {
    (if Provided(d.chatId) then {} else {ChatIdField})
    + (if Provided(d.user) then {} else {UserField})
    + (if Provided(d.bot) then {} else {BotField})
  }

  /** Builds the document Mongoose would save: validation of the three required
      paths, and `timestamp` defaulting to the creation time `now`. */
  function Create(d: Draft, now: int): (r: Result<Record, set<Field>>)
    ensures r.Success? <==> Provided(d.chatId) && Provided(d.user) && Provided(d.bot)
    ensures r.Success? ==>
      && r.value.chatId == d.chatId.value
      && r.value.user == d.user.value
      && r.value.bot == d.bot.value
      && r.value.timestamp == (if d.timestamp.Some? then d.timestamp.value else now)
    ensures r.Failure? ==> r.error != {} && r.error == MissingFields(d)
  {
    var missing := MissingFields(d);
    if missing == {} then
      Success(Record(d.chatId.value, d.user.value, d.bot.value, d.timestamp.GetOr(now)))
    else
      Failure(missing)
  }

  /** Why `save()` rejected a document. */
  datatype SaveError = Invalid(missing: set<Field>) | StoreFault(message: string)

  /** `new Message(d).save()`: validates, then appends one record unless the store
      itself fails (`fault`). */
  function Save(store: Store, d: Draft, now: int, fault: Option<string>): (r: Result<Store, SaveError>)
    ensures r.Success? <==> Create(d, now).Success? && fault.None?
    ensures r.Success? ==> r.value == store + [Create(d, now).value]
    ensures r.Failure? && fault.Some? && Create(d, now).Success? ==> r.error == StoreFault(fault.value)
  {
    match Create(d, now)
    case Failure(missing) => Failure(Invalid(missing))
    case Success(rec) =>
      if fault.Some? then Failure(StoreFault(fault.value)) else Success(store + [rec])
  }

  /** A record lacking `chatId`, `user` or `bot` never reaches the store: whatever `save()`
      does, it does not grow the collection by such a record. */
  lemma IncompleteDraftNeverPersisted(store: Store, d: Draft, now: int, fault: Option<string>)
    requires !Provided(d.chatId) || !Provided(d.user) || !Provided(d.bot)
    ensures Save(store, d, now, fault).Failure?
    ensures Save(store, d, now, fault).error.Invalid?
    ensures Save(store, d, now, fault).error.missing != {}
  {
  }

  /** The text of `err.message` for a failed save: Mongoose lists each failing path. */
  function SaveErrorMessage(e: SaveError): string {
    match e
    case StoreFault(m) => m
    case Invalid(missing) =>
      "Message validation failed: "
      + (if ChatIdField in missing then "chatId: Path `chatId` is required." else "")
      + (if UserField in missing then (if ChatIdField in missing then ", " else "") + "user: Path `user` is required." else "")
      + (if BotField in missing then (if ChatIdField in missing || UserField in missing then ", " else "") + "bot: Path `bot` is required." else "")
  }

  // ---------------------------------------------------------------------------
  // Selecting records by chat id (Message.find({ chatId }), deleteMany({ chatId }))
  // ---------------------------------------------------------------------------

  /** The records of chat `id`, in store order. */
  function Matching(store: Store, id: string): (r: Store)
    ensures |r| <= |store|
  {
    if |store| == 0 then []
    else (if store[0].chatId == id then [store[0]] else []) + Matching(store[1..], id)
  }

  /** The records selected for chat `id` are exactly the store's records of that chat. */
  lemma {:induction false} MatchingMembers(store: Store, id: string)
    ensures forall x :: x in Matching(store, id) <==> x in store && x.chatId == id
  {
    if |store| > 0 {
      MatchingMembers(store[1..], id);
      assert store == [store[0]] + store[1..];
    }
  }

  /** The records of every other chat, in store order. */
  function Without(store: Store, id: string): (r: Store)
    ensures |r| <= |store|
    ensures forall x :: x in r <==> x in store && x.chatId != id
  {
    if |store| == 0 then []
    else (if store[0].chatId != id then [store[0]] else []) + Without(store[1..], id)
  }

  /** Selecting distributes over concatenation: the relative order of the kept
      records is that of the store. */
  lemma {:induction false} MatchingAppend(a: Store, b: Store, id: string)
    ensures Matching(a + b, id) == Matching(a, id) + Matching(b, id)
  {
    if |a| > 0 {
      var head := if a[0].chatId == id then [a[0]] else [];
      assert (a + b)[0] == a[0];
      assert (a + b)[1..] == a[1..] + b;
      MatchingAppend(a[1..], b, id);
      assert Matching(a + b, id) == head + Matching(a[1..] + b, id);
      assert Matching(a, id) == head + Matching(a[1..], id);
    } else {
      assert a + b == b;
    }
  }

  lemma {:induction false} WithoutAppend(a: Store, b: Store, id: string)
    ensures Without(a + b, id) == Without(a, id) + Without(b, id)
  {
    if |a| > 0 {
      var head := if a[0].chatId != id then [a[0]] else [];
      assert (a + b)[0] == a[0];
      assert (a + b)[1..] == a[1..] + b;
      WithoutAppend(a[1..], b, id);
      assert Without(a + b, id) == head + Without(a[1..] + b, id);
      assert Without(a, id) == head + Without(a[1..], id);
    } else {
      assert a + b == b;
    }
  }

  /** The two selections split the store: every record lands in exactly one of them. */
  lemma {:induction false} MatchingWithoutPartition(store: Store, id: string)
    ensures multiset(Matching(store, id)) + multiset(Without(store, id)) == multiset(store)
    ensures |Matching(store, id)| + |Without(store, id)| == |store|
  {
    if |store| > 0 {
      MatchingWithoutPartition(store[1..], id);
      assert store == [store[0]] + store[1..];
    }
  }

  /** Selecting a chat's records from a store that only holds that chat's records
      changes nothing. */
  lemma {:induction false} MatchingAll(store: Store, id: string)
    requires forall x :: x in store ==> x.chatId == id
    ensures Matching(store, id) == store
  {
    if |store| > 0 {
      assert store[0] in store;
      MatchingAll(store[1..], id);
      assert store == [store[0]] + store[1..];
    }
  }

  /** The store after one more insert: the new record joins its own chat's records
      at the end, and no other chat's. */
  lemma MatchingAfterInsert(store: Store, rec: Record, id: string)
    ensures Matching(store + [rec], id)
         == Matching(store, id) + (if rec.chatId == id then [rec] else [])
  {
    MatchingAppend(store, [rec], id);
    assert [rec][1..] == [];
  }
}

=== FILE: sessions.dfy ===
/** GET `/sessions` (`backend/src/routes/chat.ts`): the aggregation pipeline
    `$group` by chat id, `$sort` by timestamp descending, `$limit` 50, `$project` with
    `$substr` truncation, over the store in insertion order. */
module Sessions {
  import opened Wrappers
  import opened Text
  import opened Sorting
  import opened Message

  const SessionLimit: nat := 50
  const TitleBytes: nat := 50
  const PreviewBytes: nat := 100
  const SessionsFailed: string := "Failed to retrieve chat sessions"

  /** One `$group` output document: `$first` of `user`, `$last` of `bot` and of
      `timestamp`, and the record count, for one chat id. */
  datatype GroupRow = GroupRow(id: string, title: string, lastMessage: string, timestamp: int, messageCount: nat)

  /** One `$project` output document. */
  datatype Summary = Summary(id: string, title: string, preview: string, timestamp: int, messageCount: nat)

  /** Some record of the store belongs to chat `c`. */
  ghost predicate HasChat(store: Store, c: string) {
    exists i :: 0 <= i < |store| && store[i].chatId == c
  }

  /** No two rows share a chat id. */
  ghost predicate DistinctIds(rows: seq<GroupRow>) {
    forall i, j :: 0 <= i < j < |rows| ==> rows[i].id != rows[j].id
  }

  /** The chat ids of the store, each once, in order of first appearance. */
  function ChatIds(store: Store): (ids: seq<string>)
    ensures forall i, j :: 0 <= i < j < |ids| ==> ids[i] != ids[j]
    ensures forall c :: c in ids <==> HasChat(store, c)
  {
    if |store| == 0 then []
    else
      var init := store[..|store| - 1];
      var last := store[|store| - 1];
      var rest := ChatIds(init);
      assert forall c :: HasChat(store, c) <==> HasChat(init, c) || last.chatId == c by {
        forall c ensures HasChat(store, c) <==> HasChat(init, c) || last.chatId == c {
          if HasChat(init, c) {
            var i :| 0 <= i < |init| && init[i].chatId == c;
            assert store[i] == init[i];
          }
          if HasChat(store, c) {
            var i :| 0 <= i < |store| && store[i].chatId == c;
            if i < |store| - 1 {
              assert init[i] == store[i];
            }
          }
        }
      }
      if last.chatId in rest then rest else rest + [last.chatId]
  }

  /** A chat occurs in the store exactly when it has records. */
  lemma ChatHasRecords(store: Store, c: string)
    ensures HasChat(store, c) <==> |Matching(store, c)| > 0
  {
    MatchingMembers(store, c);
    if HasChat(store, c) {
      var i :| 0 <= i < |store| && store[i].chatId == c;
      assert store[i] in store;
      assert store[i] in Matching(store, c);
    }
    if |Matching(store, c)| > 0 {
      var x := Matching(store, c)[0];
      assert x in Matching(store, c);
      var i :| 0 <= i < |store| && store[i] == x;
    }
  }

  /** `row` is the `$group` output for its chat: the first record's `user`, the last
      record's `bot` and `timestamp`, in store order, and the record count. */
  ghost predicate Summarises(store: Store, row: GroupRow) {
    var m := Matching(store, row.id);
    && |m| > 0
    && row.title == m[0].user
    && row.lastMessage == m[|m| - 1].bot
    && row.timestamp == m[|m| - 1].timestamp
    && row.messageCount == |m|
  }

  function GroupOf(store: Store, id: string): GroupRow
    requires |Matching(store, id)| > 0
  {
    var m := Matching(store, id);
    GroupRow(id, m[0].user, m[|m| - 1].bot, m[|m| - 1].timestamp, |m|)
  }

  /** Every chat id of the store has records. */
  lemma ChatIdsHaveRecords(store: Store)
    ensures forall i :: 0 <= i < |ChatIds(store)| ==> |Matching(store, ChatIds(store)[i])| > 0
  {
    var ids := ChatIds(store);
    forall i | 0 <= i < |ids| ensures |Matching(store, ids[i])| > 0 {
      assert ids[i] in ids;
      ChatHasRecords(store, ids[i]);
    }
  }

  /** The `$group` rows for the chat ids `ids`, in that order. */
  function GroupIds(store: Store, ids: seq<string>): (rows: seq<GroupRow>)
    requires forall i :: 0 <= i < |ids| ==> |Matching(store, ids[i])| > 0
    ensures |rows| == |ids|
    ensures forall i :: 0 <= i < |rows| ==> rows[i].id == ids[i]
  {
    if |ids| == 0 then []
    else [GroupOf(store, ids[0])] + GroupIds(store, ids[1..])
  }

  /** Each row of `GroupIds` is `GroupOf` its id. */
  lemma {:induction false} GroupIdsRows(store: Store, ids: seq<string>)
    requires forall i :: 0 <= i < |ids| ==> |Matching(store, ids[i])| > 0
    ensures forall i :: 0 <= i < |ids| ==> GroupIds(store, ids)[i] == GroupOf(store, ids[i])
  {
    if |ids| > 0 {
      var tail := ids[1..];
      GroupIdsRows(store, tail);
      var rows := GroupIds(store, ids);
      assert rows == [GroupOf(store, ids[0])] + GroupIds(store, tail);
      forall i | 1 <= i < |ids| ensures rows[i] == GroupOf(store, ids[i]) {
        assert rows[i] == GroupIds(store, tail)[i - 1];
        assert ids[i] == tail[i - 1];
      }
    }
  }

  /** The `$group` stage: one row per chat id of the store, in order of first
      appearance. */
  function Group(store: Store): (rows: seq<GroupRow>)
    ensures |rows| == |ChatIds(store)|
    ensures forall i :: 0 <= i < |rows| ==> rows[i].id == ChatIds(store)[i]
    ensures DistinctIds(rows)
  {
    ChatIdsHaveRecords(store);
    GroupIds(store, ChatIds(store))
  }

  /** Each `$group` row carries what `$first`, `$last` and `$sum` compute over its
      chat's records in store order. */
  lemma GroupSummarises(store: Store)
    ensures forall i :: 0 <= i < |Group(store)| ==> Summarises(store, Group(store)[i])
  {
    var ids := ChatIds(store);
    ChatIdsHaveRecords(store);
    GroupIdsRows(store, ids);
    forall i | 0 <= i < |ids| ensures Summarises(store, Group(store)[i]) {
      assert Group(store)[i] == GroupOf(store, ids[i]);
    }
  }

  /** The rows of `$group` are exactly the chats of the store. */
  lemma GroupCoversChats(store: Store, c: string)
    ensures HasChat(store, c) <==> exists i :: 0 <= i < |Group(store)| && Group(store)[i].id == c
  {
    var rows, ids := Group(store), ChatIds(store);
    if HasChat(store, c) {
      var i :| 0 <= i < |ids| && ids[i] == c;
      assert rows[i].id == c;
    }
    if exists i :: 0 <= i < |rows| && rows[i].id == c {
      var i :| 0 <= i < |rows| && rows[i].id == c;
      assert ids[i] in ids;
    }
  }

  function NegTimestamp(w: GroupRow): int {
    -w.timestamp
  }

  function Min(a: nat, b: nat): nat {
    if a < b then a else b
  }

  /** Rows whose ids are distinct stay so under any reordering. */
  lemma DistinctIdsPermutation(a: seq<GroupRow>, b: seq<GroupRow>)
    requires multiset(a) == multiset(b)
    requires DistinctIds(a)
    ensures DistinctIds(b)
  {
    forall i, j | 0 <= i < j < |b| ensures b[i].id != b[j].id {
      if b[i].id == b[j].id {
        assert b[i] in multiset(a) && b[j] in multiset(a);
        var k :| 0 <= k < |a| && a[k] == b[i];
        var l :| 0 <= l < |a| && a[l] == b[j];
        assert k == l;
        OccursOnce(a, k);
        TwoOccurrences(b, i, j);
      }
    }
  }

  /** An element at one index of a sequence with distinct ids has multiplicity one. */
  lemma OccursOnce(a: seq<GroupRow>, k: int)
    requires DistinctIds(a) && 0 <= k < |a|
    ensures multiset(a)[a[k]] == 1
  {
    var head, tail := a[..k], a[k + 1..];
    assert a == head + [a[k]] + tail;
    forall t | 0 <= t < |head| ensures head[t] != a[k] {
      assert head[t].id == a[t].id;
    }
    forall t | 0 <= t < |tail| ensures tail[t] != a[k] {
      assert tail[t].id == a[k + 1 + t].id;
    }
    assert multiset(a) == multiset(head) + multiset{a[k]} + multiset(tail);
  }

  /** Two equal elements at different indices give multiplicity at least two. */
  lemma TwoOccurrences(b: seq<GroupRow>, i: int, j: int)
    requires 0 <= i < j < |b| && b[i] == b[j]
    ensures multiset(b)[b[i]] >= 2
  {
    assert b == b[..j] + b[j..];
    assert b[i] == b[..j][i];
    assert b[j] == b[j..][0];
    assert multiset(b) == multiset(b[..j]) + multiset(b[j..]);
  }

  /** The first `k` rows of a newest-first reordering of `rows`. */
  lemma NewestFirstPrefix(rows: seq<GroupRow>, sorted: seq<GroupRow>, k: nat)
    requires multiset(sorted) == multiset(rows)
    requires SortedBy(sorted, NegTimestamp)
    requires DistinctIds(rows)
    requires k <= |rows|
    ensures |sorted| == |rows|
    ensures forall i, j :: 0 <= i < j < k ==> sorted[i].timestamp >= sorted[j].timestamp
    ensures forall w :: w in sorted[..k] ==> w in rows
    ensures DistinctIds(sorted[..k])
    ensures forall w, v :: w in rows && w !in sorted[..k] && v in sorted[..k] ==> w.timestamp <= v.timestamp
    ensures k == |sorted| ==> forall w :: w in rows ==> w in sorted[..k]
  {
    assert |multiset(sorted)| == |multiset(rows)|;
    KeptDominateOmitted(rows, sorted, NegTimestamp, k);
    DistinctIdsPermutation(rows, sorted);
    var top := sorted[..k];
    forall i, j | 0 <= i < j < k ensures sorted[i].timestamp >= sorted[j].timestamp {
      assert NegTimestamp(sorted[i]) <= NegTimestamp(sorted[j]);
    }
    forall w | w in top ensures w in rows {
      assert w in multiset(sorted);
    }
    forall i, j | 0 <= i < j < |top| ensures top[i].id != top[j].id {
      assert top[i] == sorted[i] && top[j] == sorted[j];
    }
    if k == |sorted| {
      assert top == sorted;
      forall w | w in rows ensures w in top {
        assert w in multiset(sorted);
      }
    }
  }

  /** The `$sort` and `$limit` stages: the rows most recent first, at most 50 of them.
      Equal timestamps keep `$group`'s order here; MongoDB leaves it open. */
  function Top(rows: seq<GroupRow>): (top: seq<GroupRow>)
    requires DistinctIds(rows)
    ensures |top| == Min(SessionLimit, |rows|)
    ensures forall i, j :: 0 <= i < j < |top| ==> top[i].timestamp >= top[j].timestamp
    ensures forall w :: w in top ==> w in rows
    ensures DistinctIds(top)
  {
    var sorted := SortBy(rows, NegTimestamp);
    var k := Min(SessionLimit, |rows|);
    NewestFirstPrefix(rows, sorted, k);
    sorted[..k]
  }

  /** Every row `$limit` leaves out is no more recent than any row it keeps, and none
      is left out below the limit. */
  lemma TopKeepsNewest(rows: seq<GroupRow>)
    requires DistinctIds(rows)
    ensures forall w, v :: w in rows && w !in Top(rows) && v in Top(rows) ==> w.timestamp <= v.timestamp
    ensures |Top(rows)| < SessionLimit ==> forall w :: w in rows ==> w in Top(rows)
  {
    var sorted := SortBy(rows, NegTimestamp);
    var k := Min(SessionLimit, |rows|);
    NewestFirstPrefix(rows, sorted, k);
    assert Top(rows) == sorted[..k];
  }

  /** The chats that survive `$sort` and `$limit`. */
  function Ranked(store: Store): seq<GroupRow> {
    Top(Group(store))
  }

  /** Every ranked row is the `$group` output for its chat. */
  lemma RankedSummarise(store: Store)
    ensures forall i :: 0 <= i < |Ranked(store)| ==> Summarises(store, Ranked(store)[i])
  {
    var top := Ranked(store);
    GroupSummarises(store);
    forall i | 0 <= i < |top| ensures Summarises(store, top[i]) {
      assert top[i] in top;
      var k :| 0 <= k < |Group(store)| && Group(store)[k] == top[i];
    }
  }

  /** The `$project` stage for one row, with MongoDB's byte-counting `$substr`. */
  function Project(w: GroupRow): Option<Summary> {
    match (SubstrBytes(w.title, TitleBytes), SubstrBytes(w.lastMessage, PreviewBytes))
    case (Some(t), Some(p)) => Some(Summary(w.id, t, p, w.timestamp, w.messageCount))
    case _ => None
  }

  /** Projects every row; one failing `$substr` fails the whole aggregation. */
  function ProjectAll(rows: seq<GroupRow>): (r: Option<seq<Summary>>)
    ensures r.Some? ==> |r.value| == |rows| && forall i :: 0 <= i < |rows| ==> Project(rows[i]) == Some(r.value[i])
    ensures r.None? <==> exists i :: 0 <= i < |rows| && Project(rows[i]).None?
  {
    if |rows| == 0 then Some([])
    else
      var head := Project(rows[0]);
      var tail := rows[1..];
      var rest := ProjectAll(tail);
      if head.None? then None
      else if rest.None? then
        var i :| 0 <= i < |tail| && Project(tail[i]).None?;
        assert rows[i + 1] == tail[i];
        None
      else
        assert forall i :: 1 <= i < |rows| ==> rows[i] == tail[i - 1];
        Some([head.value] + rest.value)
  }

  /** `s` summarises its chat as the projection promises: the count, the last
      timestamp, and the first `user` / last `bot` cut by `cut` to 50 / 100 units. */
  ghost predicate Describes(store: Store, s: Summary, cut: (string, nat) -> Option<string>) {
    var m := Matching(store, s.id);
    && |m| > 0
    && s.messageCount == |m|
    && s.timestamp == m[|m| - 1].timestamp
    && cut(m[0].user, TitleBytes) == Some(s.title)
    && cut(m[|m| - 1].bot, PreviewBytes) == Some(s.preview)
  }

  /** Byte 50 of the title or byte 100 of the last reply falls inside a character. */
  ghost predicate CutsInsideCharacter(w: GroupRow) {
    !IsByteBoundary(w.title, TitleBytes) || !IsByteBoundary(w.lastMessage, PreviewBytes)
  }

  /** Projecting a `$group` row yields a summary of the same chat, or fails exactly
      when a cut falls inside a character. */
  lemma ProjectDescribes(store: Store, w: GroupRow)
    requires Summarises(store, w)
    ensures Project(w).Some? ==>
      Describes(store, Project(w).value, SubstrBytes) && Project(w).value.id == w.id
      && Project(w).value.timestamp == w.timestamp
    ensures Project(w).None? <==> CutsInsideCharacter(w)
  {
    SubstrBytesFailsIffMidCharacter(w.title, TitleBytes);
    SubstrBytesFailsIffMidCharacter(w.lastMessage, PreviewBytes);
  }

  /** The whole pipeline, as the route runs it: `None` when the aggregation fails.
      A successful listing has one summary per chat, up to 50, most recent first. */
  function ListSessions(store: Store): (r: Option<seq<Summary>>)
    ensures r.Some? ==> |r.value| == Min(SessionLimit, |ChatIds(store)|)
    ensures r.Some? ==> forall i, j :: 0 <= i < j < |r.value| ==>
      r.value[i].id != r.value[j].id && r.value[i].timestamp >= r.value[j].timestamp
  {
    var top := Ranked(store);
    forall i | 0 <= i < |top|
      ensures Project(top[i]).Some? ==>
        Project(top[i]).value.id == top[i].id && Project(top[i]).value.timestamp == top[i].timestamp
    {
    }
    ProjectAll(top)
  }

  /** Each listed summary describes its chat: its record count, its last timestamp,
      and the byte-cut first message and last reply. */
  lemma ListingDescribesChats(store: Store)
    requires ListSessions(store).Some?
    ensures forall i :: 0 <= i < |ListSessions(store).value| ==>
      Describes(store, ListSessions(store).value[i], SubstrBytes)
  {
    var top := Ranked(store);
    var out := ListSessions(store).value;
    RankedSummarise(store);
    forall i | 0 <= i < |out| ensures Describes(store, out[i], SubstrBytes) {
      assert Project(top[i]) == Some(out[i]);
      ProjectDescribes(store, top[i]);
    }
  }

  /** The listing fails exactly when a kept session's title or preview is cut inside
      a character. */
  lemma ListingFailsIffCutInsideCharacter(store: Store)
    ensures ListSessions(store).None? <==>
      exists i :: 0 <= i < |Ranked(store)| && CutsInsideCharacter(Ranked(store)[i])
  {
    var top := Ranked(store);
    RankedSummarise(store);
    forall i | 0 <= i < |top| ensures Project(top[i]).None? <==> CutsInsideCharacter(top[i]) {
      ProjectDescribes(store, top[i]);
    }
  }

  /** A successful listing lists the ranked chats in rank order. */
  lemma ListingFollowsRanking(store: Store)
    requires ListSessions(store).Some?
    ensures |ListSessions(store).value| == |Ranked(store)|
    ensures forall t :: 0 <= t < |Ranked(store)| ==>
      Ranked(store)[t].id == ListSessions(store).value[t].id
      && Ranked(store)[t].timestamp == ListSessions(store).value[t].timestamp
  {
    var top := Ranked(store);
    var out := ListSessions(store).value;
    forall t | 0 <= t < |top| ensures top[t].id == out[t].id && top[t].timestamp == out[t].timestamp {
      assert Project(top[t]) == Some(out[t]);
    }
  }

  /** A `$group` row left out by the limit is no more recent than any kept row, and
      the limit was reached. */
  lemma OmittedRow(rows: seq<GroupRow>, k: nat)
    requires DistinctIds(rows)
    requires k < |rows|
    requires forall t :: 0 <= t < |Top(rows)| ==> Top(rows)[t].id != rows[k].id
    ensures |Top(rows)| == SessionLimit
    ensures forall t :: 0 <= t < |Top(rows)| ==> rows[k].timestamp <= Top(rows)[t].timestamp
  {
    var top := Top(rows);
    TopKeepsNewest(rows);
    var w := rows[k];
    assert w in rows;
    assert w !in top;
    forall t | 0 <= t < |top| ensures w.timestamp <= top[t].timestamp {
      assert top[t] in top;
    }
  }

  /** A `$group` row carries the timestamp of its chat's last record. */
  lemma GroupRowTimestamp(store: Store, k: nat)
    requires k < |Group(store)|
    ensures var m := Matching(store, Group(store)[k].id); |m| > 0 && Group(store)[k].timestamp == m[|m| - 1].timestamp
  {
    GroupSummarises(store);
    assert Summarises(store, Group(store)[k]);
  }

  /** A chat the ranking leaves out, with `last` its last record, is no more recent
      than any chat it keeps, and the ranking is full. */
  lemma OmittedFromRanking(store: Store, c: string, last: Record)
    requires |Matching(store, c)| > 0 && last == Matching(store, c)[|Matching(store, c)| - 1]
    requires forall i :: 0 <= i < |Ranked(store)| ==> Ranked(store)[i].id != c
    ensures |Ranked(store)| == SessionLimit
    ensures forall i :: 0 <= i < |Ranked(store)| ==> last.timestamp <= Ranked(store)[i].timestamp
  {
    var rows := Group(store);
    ChatHasRecords(store, c);
    GroupCoversChats(store, c);
    var k :| 0 <= k < |rows| && rows[k].id == c;
    GroupRowTimestamp(store, k);
    assert Matching(store, rows[k].id) == Matching(store, c);
    var t := rows[k].timestamp;
    assert t == last.timestamp;
    var top := Ranked(store);
    assert top == Top(rows);
    assert forall i :: 0 <= i < |top| ==> top[i].id != rows[k].id;
    OmittedRow(rows, k);
    assert forall i :: 0 <= i < |top| ==> t <= top[i].timestamp;
  }

  /** A lower bound on the timestamps of the ranked rows bounds the listing too. */
  lemma NoEarlierThan(t: int, top: seq<GroupRow>, out: seq<Summary>)
    requires |out| == |top|
    requires forall i :: 0 <= i < |top| ==> top[i].timestamp == out[i].timestamp
    requires forall i :: 0 <= i < |top| ==> t <= top[i].timestamp
    ensures forall i :: 0 <= i < |out| ==> t <= out[i].timestamp
  {
  }

  /** A chat missing from a successful listing, with `last` its last record, is no more
      recent than every chat in it, and it is missing only because 50 others are
      listed. */
  lemma OmittedAreOlder(store: Store, c: string, last: Record)
    requires ListSessions(store).Some?
    requires |Matching(store, c)| > 0 && last == Matching(store, c)[|Matching(store, c)| - 1]
    requires forall i :: 0 <= i < |ListSessions(store).value| ==> ListSessions(store).value[i].id != c
    ensures |ListSessions(store).value| == SessionLimit
    ensures forall i :: 0 <= i < |ListSessions(store).value| ==> last.timestamp <= ListSessions(store).value[i].timestamp
  {
    var out := ListSessions(store).value;
    var top := Ranked(store);
    ListingFollowsRanking(store);
    assert forall i :: 0 <= i < |top| ==> top[i].id != c;
    OmittedFromRanking(store, c, last);
    NoEarlierThan(last.timestamp, top, out);
  }

  /** GET `/sessions`; `fault` stands for a failing aggregation call. */
  function SessionsRoute(store: Store, fault: bool): (r: Result<seq<Summary>, string>)
    ensures r.Success? <==> !fault && ListSessions(store).Some?
    ensures r.Success? ==> r.value == ListSessions(store).value
    ensures r.Failure? ==> r.error == SessionsFailed
  {
    if fault then Failure(SessionsFailed)
    else match ListSessions(store)
      case Some(out) => Success(out)
      case None => Failure(SessionsFailed)
  }

  // ---------------------------------------------------------------------------
  // Truncating by code points instead of bytes
  // ---------------------------------------------------------------------------

  function ProjectByCodePoint(w: GroupRow): Summary {
    Summary(w.id, TakeCodePoints(w.title, TitleBytes), TakeCodePoints(w.lastMessage, PreviewBytes),
            w.timestamp, w.messageCount)
  }

  function CodePointCut(s: string, n: nat): Option<string> {
    Some(TakeCodePoints(s, n))
  }

  /** The pipeline with `$substrCP` in place of `$substr`: it cannot fail, and each
      title / preview is the first 50 / 100 characters. */
  function ListSessionsByCodePoint(store: Store): (out: seq<Summary>)
    ensures |out| == Min(SessionLimit, |ChatIds(store)|)
    ensures forall i :: 0 <= i < |out| ==> Describes(store, out[i], CodePointCut)
    ensures forall i, j :: 0 <= i < j < |out| ==>
      out[i].id != out[j].id && out[i].timestamp >= out[j].timestamp
  {
    var top := Ranked(store);
    RankedSummarise(store);
    seq(|top|, i requires 0 <= i < |top| => ProjectByCodePoint(top[i]))
  }

  /** A string made only of characters of width `w` has no boundary at a byte offset
      `w * q + rem` with `0 < rem < w`. */
  lemma {:induction false} SubstrBytesUniformWidth(s: string, w: nat, q: nat, rem: nat)
    requires forall i :: 0 <= i < |s| ==> Utf8Width(s[i]) == w
    requires 0 < rem < w && q < |s|
    ensures SubstrBytes(s, w * q + rem) == None
    decreases |s|
  {
    if q > 0 {
      assert w * q + rem - w == w * (q - 1) + rem;
      SubstrBytesUniformWidth(s[1..], w, q - 1, rem);
    }
  }

  /** A chat whose first message is thirteen emoji (52 bytes): byte 50 falls inside the
      thirteenth, so the byte-counting pipeline fails while the code-point one lists it
      with the whole title. */
  lemma EmojiTitleBreaksListing()
    ensures var title := seq(13, _ => '\U{1F600}');
      var store := [Record("chat-1", title, "hi", 0)];
      && ListSessions(store) == None
      && ListSessionsByCodePoint(store) == [Summary("chat-1", title, "hi", 0, 1)]
  {
    var title := seq(13, _ => '\U{1F600}');
    var rec := Record("chat-1", title, "hi", 0);
    var store := [rec];
    assert store[..0] == [];
    assert ChatIds(store) == ["chat-1"];
    assert Matching(store, "chat-1") == [rec];
    var row := GroupRow("chat-1", title, "hi", 0, 1);
    assert Group(store) == [row];
    assert Ranked(store) == [row];
    SubstrBytesUniformWidth(title, 4, 12, 2);
    assert Project(row) == None;
  }
}

=== FILE: sidebar.dfy ===
/** The session list (`frontend/src/components/Sidebar.tsx`): how the fetched
    sessions are turned into list items, the relative-time label, and which item is
    highlighted. The clock is a parameter (`now`, milliseconds). */
module Sidebar {
  import opened Wrappers
  import opened Text

  /** One session object as fetched: `title` and `preview` may be missing or empty. */
  datatype RawSession = RawSession(id: string, title: Option<string>, timestamp: int, preview: Option<string>)

  /** One list item. */
  datatype SessionItem = SessionItem(id: string, title: string, timestamp: int, preview: string)

  const UntitledChat: string := "New Chat"

  /** The mapping inside `fetchChatSessions`: a falsy title shows as "New Chat" and a
      falsy preview as the empty string. */
  function FormatSession(raw: RawSession): (item: SessionItem)
    ensures item.id == raw.id && item.timestamp == raw.timestamp
    ensures item.title != []
    ensures item.title == UntitledChat || (raw.title.Some? && item.title == raw.title.value)
    ensures Truthy(raw.title) ==> item.title == raw.title.value
    ensures item.preview == [] <==> !Truthy(raw.preview)
    ensures Truthy(raw.preview) ==> item.preview == raw.preview.value
  {
    SessionItem(raw.id, if Truthy(raw.title) then raw.title.value else UntitledChat,
                raw.timestamp, if Truthy(raw.preview) then raw.preview.value else "")
  }

  /** What GET `/sessions` gave: an OK response with its sessions, a non-OK response,
      or a failed request. */
  datatype SessionsReply = OkBody(sessions: seq<RawSession>) | NotOk | FetchError

  /** The mount effect: only an OK response replaces the list, item for item. */
  function LoadSessions(items: seq<SessionItem>, reply: SessionsReply): (r: seq<SessionItem>)
    ensures reply.OkBody? ==> |r| == |reply.sessions|
    ensures reply.OkBody? ==> forall i :: 0 <= i < |r| ==> r[i] == FormatSession(reply.sessions[i])
    ensures !reply.OkBody? ==> r == items
  {
    match reply
    case OkBody(sessions) => seq(|sessions|, i requires 0 <= i < |sessions| => FormatSession(sessions[i]))
    case _ => items
  }

  // ---------------------------------------------------------------------------
  // formatTimestamp
  // ---------------------------------------------------------------------------

  const MinuteMs: int := 1000 * 60
  const HourMs: int := 1000 * 60 * 60
  const DayMs: int := 1000 * 60 * 60 * 24

  /** The unit the label is written in. */
  datatype Unit = Minutes | Hours | Days

  function UnitMs(u: Unit): int {
    match u
    case Minutes => MinuteMs
    case Hours => HourMs
    case Days => DayMs
  }

  function Suffix(u: Unit): string {
    match u
    case Minutes => "m ago"
    case Hours => "h ago"
    case Days => "d ago"
  }

  /** The unit `formatTimestamp` picks for a difference of `diff` milliseconds: minutes
      while the minute count is below 60, else hours while the hour count is below 24,
      else days. `Math.floor` of a quotient by a positive divisor is Dafny's `/`. */
  function UnitFor(diff: int): Unit {
    if diff / MinuteMs < 60 then Minutes
    else if diff / HourMs < 24 then Hours
    else Days
  }

  /** `formatTimestamp(timestamp)` at time `now`. */
  function FormatTimestamp(now: int, timestamp: int): string {
    var diff := now - timestamp;
    var u := UnitFor(diff);
    IntToString(diff / UnitMs(u)) + Suffix(u)
  }

  /** The unit is chosen by fixed thresholds on the difference itself: under an hour,
      under a day, or more. */
  lemma UnitThresholds(diff: int)
    ensures UnitFor(diff) == Minutes <==> diff < HourMs
    ensures UnitFor(diff) == Hours <==> HourMs <= diff < DayMs
    ensures UnitFor(diff) == Days <==> DayMs <= diff
  {
    FloorBelow(diff, MinuteMs, 60);
    FloorBelow(diff, HourMs, 24);
  }

  /** `a / b < n` exactly when `a < n * b`, for a positive `b`. */
  lemma FloorBelow(a: int, b: int, n: int)
    requires b > 0
    ensures a / b < n <==> a < n * b
  {
    var q := a / b;
    assert a == q * b + a % b && 0 <= a % b < b;
    if q < n {
      MulMonotone(q, n - 1, b);
      assert a < (n - 1) * b + b;
    } else {
      MulMonotone(n, q, b);
    }
  }

  lemma MulMonotone(x: int, y: int, b: int)
    requires x <= y && b > 0
    ensures x * b <= y * b
  {
    assert y * b - x * b == (y - x) * b;
  }

  function UnitRank(u: Unit): nat {
    match u
    case Minutes => 0
    case Hours => 1
    case Days => 2
  }

  /** A larger difference never gets a smaller unit. */
  lemma UnitMonotone(d1: int, d2: int)
    requires d1 <= d2
    ensures UnitRank(UnitFor(d1)) <= UnitRank(UnitFor(d2))
  {
    UnitThresholds(d1);
    UnitThresholds(d2);
  }

  /** Reads a label back: the count before the five-character suffix, and the unit
      the suffix names. */
  function ReadLabel(shown: string): Option<(int, Unit)> {
    if |shown| < 5 then None
    else
      var suffix := shown[|shown| - 5..];
      var unit := if suffix == Suffix(Minutes) then Some(Minutes)
        else if suffix == Suffix(Hours) then Some(Hours)
        else if suffix == Suffix(Days) then Some(Days)
        else None;
      match (ParseInt(shown[..|shown| - 5]), unit)
      case (Some(n), Some(u)) => Some((n, u))
      case _ => None
  }

  /** Reading back a count followed by a unit's suffix gives both. */
  lemma ReadLabelOf(n: int, u: Unit)
    ensures ReadLabel(IntToString(n) + Suffix(u)) == Some((n, u))
  {
    var digits := IntToString(n);
    var shown := digits + Suffix(u);
    assert shown[|shown| - 5..] == Suffix(u);
    assert shown[..|shown| - 5] == digits;
    IntToStringRoundTrip(n);
  }

  /** The label reads back as the count of whole units in the difference, in the unit
      `formatTimestamp` picked. */
  lemma FormatTimestampReadsBack(now: int, timestamp: int)
    ensures var diff := now - timestamp;
      ReadLabel(FormatTimestamp(now, timestamp)) == Some((diff / UnitMs(UnitFor(diff)), UnitFor(diff)))
  {
    var diff := now - timestamp;
    ReadLabelOf(diff / UnitMs(UnitFor(diff)), UnitFor(diff));
  }

  /** The count shown is the floor of the difference in the chosen unit: `n` units
      <= the difference < `n + 1` units, with `n` below 60 for minutes, between 1 and
      23 for hours, and at least 1 for days. */
  lemma CountIsFloor(diff: int)
    ensures var u := UnitFor(diff);
      var n := diff / UnitMs(u);
      && n * UnitMs(u) <= diff < (n + 1) * UnitMs(u)
      && (u == Minutes ==> n < 60)
      && (u == Hours ==> 1 <= n < 24)
      && (u == Days ==> n >= 1)
  {
    var u := UnitFor(diff);
    var n := diff / UnitMs(u);
    assert n * UnitMs(u) + diff % UnitMs(u) == diff;
    UnitThresholds(diff);
    if u == Hours {
      FloorBelow(diff, HourMs, 1);
    } else if u == Days {
      FloorBelow(diff, DayMs, 1);
    }
  }

  // ---------------------------------------------------------------------------
  // The highlighted item
  // ---------------------------------------------------------------------------

  /** `currentChatId === session.id`: no item is active while no chat is selected. */
  predicate IsActive(currentChatId: Option<string>, item: SessionItem) {
    currentChatId == Some(item.id)
  }

  /** The indices of the highlighted items. */
  function ActiveIndices(items: seq<SessionItem>, currentChatId: Option<string>): set<nat> {
    set i: nat | i < |items| && IsActive(currentChatId, items[i])
  }

  /** Among items with distinct ids the selected chat's item is the only one
      highlighted, and nothing is highlighted while no chat is selected. */
  lemma AtMostOneActive(items: seq<SessionItem>, currentChatId: Option<string>)
    requires forall i, j :: 0 <= i < j < |items| ==> items[i].id != items[j].id
    ensures forall k :: 0 <= k < |items| && IsActive(currentChatId, items[k]) ==>
      ActiveIndices(items, currentChatId) == {k}
    ensures currentChatId.None? ==> ActiveIndices(items, currentChatId) == {}
  {
    forall k | 0 <= k < |items| && IsActive(currentChatId, items[k])
      ensures ActiveIndices(items, currentChatId) == {k}
    {
      forall i | 0 <= i < |items| && i != k ensures !IsActive(currentChatId, items[i]) {
        if i < k {
          assert items[i].id != items[k].id;
        } else {
          assert items[k].id != items[i].id;
        }
      }
    }
  }
}

=== FILE: sorting.dfy ===
/** Ordering by an integer key. MongoDB's `sort` leaves the order of equal keys
    unspecified, so the model states its guarantees as "a sorted permutation" and uses
    a stable insertion sort as one concrete choice. */
module Sorting {

  /** `s` is in non-decreasing order of `key`. */
  ghost predicate SortedBy<T>(s: seq<T>, key: T -> int) {
    forall i, j :: 0 <= i < j < |s| ==> key(s[i]) <= key(s[j])
  }

  /** Dropping the first element keeps a sequence sorted. */
  lemma SortedTail<T>(s: seq<T>, key: T -> int)
    requires SortedBy(s, key) && |s| > 0
    ensures SortedBy(s[1..], key)
  {
    var t := s[1..];
    forall i, j | 0 <= i < j < |t| ensures key(t[i]) <= key(t[j]) {
      assert t[i] == s[i + 1] && t[j] == s[j + 1];
    }
  }

  /** An element no larger than any of a sorted sequence may go in front of it. */
  lemma SortedCons<T>(x: T, t: seq<T>, key: T -> int)
    requires SortedBy(t, key)
    requires forall j :: 0 <= j < |t| ==> key(x) <= key(t[j])
    ensures SortedBy([x] + t, key)
  {
    var r := [x] + t;
    forall i, j | 0 <= i < j < |r| ensures key(r[i]) <= key(r[j]) {
      assert r[j] == t[j - 1];
      if i > 0 {
        assert r[i] == t[i - 1];
      }
    }
  }

  /** Inserts `x` in front of the first element with a larger key. */
  function Insert<T>(x: T, s: seq<T>, key: T -> int): (r: seq<T>)
    requires SortedBy(s, key)
    ensures SortedBy(r, key)
    ensures multiset(r) == multiset(s) + multiset{x}
    ensures forall y :: y in r ==> y == x || y in s
  {
    if |s| == 0 || key(x) <= key(s[0]) then
      SortedCons(x, s, key);
      [x] + s
    else
      SortedTail(s, key);
      var t := Insert(x, s[1..], key);
      forall j | 0 <= j < |t| ensures key(s[0]) <= key(t[j]) {
        assert t[j] in t;
        if t[j] != x {
          var i :| 0 <= i < |s[1..]| && s[1..][i] == t[j];
          assert s[1..][i] == s[i + 1];
        }
      }
      SortedCons(s[0], t, key);
      assert s == [s[0]] + s[1..];
      [s[0]] + t
  }

  /** A stable insertion sort by `key`. */
  function SortBy<T>(s: seq<T>, key: T -> int): (r: seq<T>)
    ensures SortedBy(r, key)
    ensures multiset(r) == multiset(s)
  {
    if |s| == 0 then []
    else
      assert s == [s[0]] + s[1..];
      Insert(s[0], SortBy(s[1..], key), key)
  }

  /** Input that is already in order comes back unchanged: equal keys keep their
      original relative order. */
  lemma {:induction false} SortBySortedInput<T>(s: seq<T>, key: T -> int)
    requires SortedBy(s, key)
    ensures SortBy(s, key) == s
  {
    if |s| > 0 {
      SortBySortedInput(s[1..], key);
      assert s == [s[0]] + s[1..];
    }
  }

  /** Whatever order a sort picks among equal keys, the elements left out of its first
      `k` entries have keys no larger than those kept (for a descending order stated as
      ascending on a negated key). */
  lemma KeptDominateOmitted<T>(s: seq<T>, sorted: seq<T>, key: T -> int, k: nat)
    requires multiset(sorted) == multiset(s)
    requires SortedBy(sorted, key)
    requires k <= |sorted|
    ensures forall x, y :: x in s && x !in sorted[..k] && y in sorted[..k] ==> key(y) <= key(x)
  {
    forall x, y | x in s && x !in sorted[..k] && y in sorted[..k]
      ensures key(y) <= key(x)
    {
      assert x in multiset(sorted);
      var i :| 0 <= i < |sorted| && sorted[i] == x;
      var j :| 0 <= j < k && sorted[..k][j] == y;
    }
  }
}

=== FILE: text.dfy ===
/** String primitives the application relies on: JavaScript's `trim` and `includes`,
    decimal rendering of integers, and MongoDB's byte-counting `$substr`. */
module Text {
  import opened Wrappers

  // ---------------------------------------------------------------------------
  // Whitespace and trimming (String.prototype.trim)
  // ---------------------------------------------------------------------------

  /** The characters `String.prototype.trim` strips: the ECMAScript WhiteSpace and
      LineTerminator productions. */
  predicate IsJsWhitespace(c: char) {
    || c == '\t' || c == '\n' || c == '\U{B}' || c == '\U{C}' || c == '\r' || c == ' '
    || c == '\U{A0}' || c == '\U{1680}' || ('\U{2000}' <= c <= '\U{200A}')
    || c == '\U{2028}' || c == '\U{2029}' || c == '\U{202F}' || c == '\U{205F}'
    || c == '\U{3000}' || c == '\U{FEFF}'
  }

  /** A JavaScript string used as a condition: `null`/`undefined` and "" are false. */
  predicate Truthy(s: Option<string>) {
    s.Some? && s.value != ""
  }

  /** Every character is whitespace (the empty string included). */
  predicate IsBlank(s: string) {
    forall i :: 0 <= i < |s| ==> IsJsWhitespace(s[i])
  }

  /** The index of the first non-whitespace character at or after `i`, or `|s|`. */
  function SkipLeading(s: string, i: nat): (k: nat)
    requires i <= |s|
    ensures i <= k <= |s|
    ensures forall m :: i <= m < k ==> IsJsWhitespace(s[m])
    ensures k == |s| || !IsJsWhitespace(s[k])
    decreases |s| - i
  {
    if i < |s| && IsJsWhitespace(s[i]) then SkipLeading(s, i + 1) else i
  }

  /** The index just past the last non-whitespace character before `j`, or 0. */
  function SkipTrailing(s: string, j: nat): (k: nat)
    requires j <= |s|
    ensures k <= j
    ensures forall m :: k <= m < j ==> IsJsWhitespace(s[m])
    ensures k == 0 || !IsJsWhitespace(s[k - 1])
  {
    if j > 0 && IsJsWhitespace(s[j - 1]) then SkipTrailing(s, j - 1) else j
  }

  /** Drops leading whitespace. */
  function TrimStart(s: string): (r: string)
    ensures |r| <= |s| && r == s[|s| - |r|..]
    ensures IsBlank(s[..|s| - |r|])
    ensures r == [] || !IsJsWhitespace(r[0])
  {
    var k := SkipLeading(s, 0);
    assert forall m :: 0 <= m < k ==> s[..k][m] == s[m];
    s[k..]
  }

  /** Drops trailing whitespace. */
  function TrimEnd(s: string): (r: string)
    ensures |r| <= |s| && r == s[..|r|]
    ensures IsBlank(s[|r|..])
    ensures r == [] || !IsJsWhitespace(r[|r| - 1])
  {
    var k := SkipTrailing(s, |s|);
    assert forall m :: 0 <= m < |s| - k ==> s[k..][m] == s[k + m];
    s[..k]
  }

  /** `s.trim()`. */
  function Trim(s: string): string {
    TrimEnd(TrimStart(s))
  }

  /** `s.trim() === ''` holds exactly when `s` is blank. */
  lemma TrimEmptyIffBlank(s: string)
    ensures Trim(s) == [] <==> IsBlank(s)
  {
    var t := TrimStart(s);
    var k := |s| - |t|;
    assert t == s[k..];
    if IsBlank(s) {
      assert IsBlank(t);
    }
    if Trim(s) == [] {
      assert t[0..] == t;
      assert t == [];
      assert s[..k] == s;
    }
  }

  /** The trimmed string is a contiguous piece of the original with only whitespace
      removed around it, and it neither starts nor ends with whitespace. */
  lemma TrimShape(s: string)
    ensures var r := Trim(s);
      && |r| <= |s|
      && (exists i :: 0 <= i <= |s| - |r| && s[i..i + |r|] == r && IsBlank(s[..i]) && IsBlank(s[i + |r|..]))
      && (r == [] || (!IsJsWhitespace(r[0]) && !IsJsWhitespace(r[|r| - 1])))
  {
    var t := TrimStart(s);
    var r := TrimEnd(t);
    var i := |s| - |t|;
    TrimPieces(s, t, r);
    assert 0 <= i <= |s| - |r| && s[i..i + |r|] == r && IsBlank(s[..i]) && IsBlank(s[i + |r|..]);
    assert r == [] || r[0] == t[0];
  }

  /** Where the trimmed string sits in the original. */
  lemma TrimPieces(s: string, t: string, r: string)
    requires |t| <= |s| && t == s[|s| - |t|..] && IsBlank(s[..|s| - |t|])
    requires |r| <= |t| && r == t[..|r|] && IsBlank(t[|r|..])
    ensures var i := |s| - |t|;
      i + |r| <= |s| && s[i..i + |r|] == r && IsBlank(s[..i]) && IsBlank(s[i + |r|..])
  {
    var i := |s| - |t|;
    assert t == s[i..];
    assert s[i..i + |r|] == t[..|r|];
    assert s[i + |r|..] == t[|r|..];
  }

  /** Trimming twice is trimming once. */
  lemma TrimIdempotent(s: string)
    ensures Trim(Trim(s)) == Trim(s)
  {
    TrimShape(s);
    TrimTrimmed(Trim(s));
  }

  /** A string that neither starts nor ends with whitespace is its own trim. */
  lemma TrimTrimmed(r: string)
    requires r == [] || (!IsJsWhitespace(r[0]) && !IsJsWhitespace(r[|r| - 1]))
    ensures Trim(r) == r
  {
    if r != [] {
      assert SkipLeading(r, 0) == 0;
      assert r[0..] == r;
      assert TrimStart(r) == r;
      assert SkipTrailing(r, |r|) == |r|;
      assert r[..|r|] == r;
    }
  }

  // ---------------------------------------------------------------------------
  // Substring search (String.prototype.includes)
  // ---------------------------------------------------------------------------

  /** `p` occurs in `s` starting at index `i`. */
  ghost predicate OccursAt(s: string, p: string, i: int) {
    0 <= i && i + |p| <= |s| && s[i..i + |p|] == p
  }

  predicate StartsWith(s: string, p: string) {
    |p| <= |s| && s[..|p|] == p
  }

  /** `s.includes(p)`: case-sensitive substring test. */
  predicate Includes(s: string, p: string)
    decreases |s|
  {
    StartsWith(s, p) || (|s| > 0 && Includes(s[1..], p))
  }

  /** `Includes` is exactly "occurs at some index". */
  lemma {:induction false} IncludesIffOccurs(s: string, p: string)
    ensures Includes(s, p) <==> exists i :: OccursAt(s, p, i)
    decreases |s|
  {
    if StartsWith(s, p) {
      assert OccursAt(s, p, 0);
    } else if |s| > 0 {
      IncludesIffOccurs(s[1..], p);
      if Includes(s[1..], p) {
        var i :| OccursAt(s[1..], p, i);
        assert s[i + 1..i + 1 + |p|] == s[1..][i..i + |p|];
        assert OccursAt(s, p, i + 1);
      } else {
        forall i | 1 <= i && OccursAt(s, p, i) ensures OccursAt(s[1..], p, i - 1) {
          assert s[1..][i - 1..i - 1 + |p|] == s[i..i + |p|];
        }
        assert !OccursAt(s, p, 0);
      }
    } else {
      assert |p| > 0;
    }
  }

  /** A prefix that never contains the first character of `p` cannot hold or start an
      occurrence of `p`, so prepending it does not change whether `p` is included. */
  lemma {:induction false} IncludesSkipsPrefix(a: string, b: string, p: string)
    requires |p| > 0
    requires forall k :: 0 <= k < |a| ==> a[k] != p[0]
    ensures Includes(a + b, p) <==> Includes(b, p)
    decreases |a|
  {
    if |a| == 0 {
      assert a + b == b;
    } else {
      assert (a + b)[0] == a[0];
      assert !StartsWith(a + b, p);
      assert (a + b)[1..] == a[1..] + b;
      IncludesSkipsPrefix(a[1..], b, p);
    }
  }

  /** An occurrence inside `b` is an occurrence inside `a + b`. */
  lemma IncludesInSuffix(a: string, b: string, p: string)
    requires Includes(b, p)
    ensures Includes(a + b, p)
  {
    IncludesIffOccurs(b, p);
    var i :| OccursAt(b, p, i);
    assert (a + b)[|a| + i..|a| + i + |p|] == b[i..i + |p|];
    assert OccursAt(a + b, p, |a| + i);
    IncludesIffOccurs(a + b, p);
  }

  // ---------------------------------------------------------------------------
  // Decimal rendering of integers (String(n), template literals)
  // ---------------------------------------------------------------------------

  predicate IsDigit(c: char) {
    '0' <= c <= '9'
  }

  function DigitChar(d: nat): (c: char)
    requires d < 10
    ensures IsDigit(c) && (c as int) - ('0' as int) == d
  {
    (('0' as int) + d) as char
  }

  function DigitValue(c: char): nat
    requires IsDigit(c)
  {
    (c as int) - ('0' as int)
  }

  /** Decimal text of a natural number, most significant digit first. */
  function NatToString(n: nat): (s: string)
    ensures |s| >= 1
    ensures forall i :: 0 <= i < |s| ==> IsDigit(s[i])
    ensures s[0] != '0' || s == "0"
  {
    (if n < 10 then [] else NatToString(n / 10)) + [DigitChar(n % 10)]
  }

  /** Decimal text of an integer, with a leading '-' when negative. */
  function IntToString(i: int): string {
    if i < 0 then "-" + NatToString(-i) else NatToString(i)
  }

  /** The value of a string of decimal digits (the inverse of `NatToString`). */
  function ParseDigits(s: string): nat
    requires forall i :: 0 <= i < |s| ==> IsDigit(s[i])
  {
    if |s| == 0 then 0 else ParseDigits(s[..|s| - 1]) * 10 + DigitValue(s[|s| - 1])
  }

  /** Reading back the rendered digits gives the number. */
  lemma {:induction false} NatToStringRoundTrip(n: nat)
    ensures ParseDigits(NatToString(n)) == n
  {
    var q, d := n / 10, n % 10;
    assert n == q * 10 + d;
    var front := if n < 10 then [] else NatToString(q);
    assert NatToString(n) == front + [DigitChar(d)];
    ParseDigitsSnoc(front, d);
    if n >= 10 {
      NatToStringRoundTrip(q);
    } else {
      assert ParseDigits(front) == q;
    }
  }

  /** Appending a digit multiplies the value by ten and adds the digit. */
  lemma ParseDigitsSnoc(front: string, d: nat)
    requires forall i :: 0 <= i < |front| ==> IsDigit(front[i])
    requires d < 10
    ensures ParseDigits(front + [DigitChar(d)]) == ParseDigits(front) * 10 + d
  {
    assert (front + [DigitChar(d)])[..|front|] == front;
  }

  /** Different numbers render differently. */
  lemma NatToStringInjective(a: nat, b: nat)
    requires NatToString(a) == NatToString(b)
    ensures a == b
  {
    NatToStringRoundTrip(a);
    NatToStringRoundTrip(b);
  }

  predicate AllDigits(s: string) {
    forall i :: 0 <= i < |s| ==> IsDigit(s[i])
  }

  /** Reads an optional '-' followed by at least one digit; `None` for anything else. */
  function ParseInt(s: string): Option<int> {
    if |s| > 1 && s[0] == '-' && AllDigits(s[1..]) then Some(-(ParseDigits(s[1..]) as int))
    else if |s| > 0 && AllDigits(s) then Some(ParseDigits(s))
    else None
  }

  /** Reading back the rendered integer gives the integer. */
  lemma IntToStringRoundTrip(i: int)
    ensures ParseInt(IntToString(i)) == Some(i)
  {
    if i < 0 {
      NatToStringRoundTrip(-i);
      ParseNegative(NatToString(-i));
    } else {
      NatToStringRoundTrip(i);
      ParseUnsigned(NatToString(i));
    }
  }

  lemma ParseNegative(digits: string)
    requires |digits| > 0 && AllDigits(digits)
    ensures ParseInt("-" + digits) == Some(-(ParseDigits(digits) as int))
  {
    assert ("-" + digits)[1..] == digits;
  }

  lemma ParseUnsigned(digits: string)
    requires |digits| > 0 && AllDigits(digits)
    ensures ParseInt(digits) == Some(ParseDigits(digits) as int)
  {
    assert IsDigit(digits[0]);
  }

  /** The rendered integer has no character other than digits and a leading '-'. */
  lemma IntToStringChars(i: int, c: char)
    requires c != '-' && !IsDigit(c)
    ensures c !in IntToString(i)
  {
    if i < 0 {
      assert IntToString(i) == "-" + NatToString(-i);
    }
  }

  // ---------------------------------------------------------------------------
  // UTF-8 byte counting ($substr / $substrBytes)
  // ---------------------------------------------------------------------------

  /** Number of bytes the UTF-8 encoding of one code point takes. */
  function Utf8Width(c: char): (w: nat)
    ensures 1 <= w <= 4
  {
    var v := c as int;
    if v < 0x80 then 1 else if v < 0x800 then 2 else if v < 0x1_0000 then 3 else 4
  }

  /** Number of bytes of the UTF-8 encoding of `s`. */
  function Utf8Length(s: string): nat {
    if |s| == 0 then 0 else Utf8Width(s[0]) + Utf8Length(s[1..])
  }

  predicate IsAscii(s: string) {
    forall i :: 0 <= i < |s| ==> (s[i] as int) < 0x80
  }

  /** Byte offset `n` falls on a character boundary of `s` (or past its end). */
  ghost predicate IsByteBoundary(s: string, n: nat) {
    Utf8Length(s) <= n || exists k :: 0 <= k <= |s| && Utf8Length(s[..k]) == n
  }

  /** `{ $substr: [s, 0, count] }`: the leading `count` bytes of `s`, or the whole of `s`
      when it is shorter. It is an error to cut inside a multi-byte character. */
  function SubstrBytes(s: string, count: nat): (r: Option<string>)
    ensures r.Some? ==> r.value <= s && Utf8Length(r.value) <= count
    ensures r.Some? ==> r.value == s || Utf8Length(r.value) == count
  {
    if |s| == 0 || count == 0 then Some([])
    else if Utf8Width(s[0]) <= count then
      match SubstrBytes(s[1..], count - Utf8Width(s[0]))
      case Some(t) => Some([s[0]] + t)
      case None => None
    else None
  }

  lemma {:induction false} Utf8LengthPrefix(s: string, k: nat)
    requires 1 <= k <= |s|
    ensures Utf8Length(s[..k]) == Utf8Width(s[0]) + Utf8Length(s[1..][..k - 1])
  {
    assert s[..k][1..] == s[1..][..k - 1];
  }

  /** `$substr` fails exactly when `count` cuts inside a character of `s`. */
  lemma {:induction false} SubstrBytesFailsIffMidCharacter(s: string, count: nat)
    ensures SubstrBytes(s, count).None? <==> !IsByteBoundary(s, count)
    decreases |s|
  {
    if |s| == 0 || count == 0 {
      assert Utf8Length(s[..0]) == 0;
    } else {
      var w := Utf8Width(s[0]);
      if w <= count {
        SubstrBytesFailsIffMidCharacter(s[1..], count - w);
        if IsByteBoundary(s[1..], count - w) {
          if Utf8Length(s[1..]) > count - w {
            var k :| 0 <= k <= |s[1..]| && Utf8Length(s[1..][..k]) == count - w;
            Utf8LengthPrefix(s, k + 1);
          }
        } else {
          forall k | 0 <= k <= |s| ensures Utf8Length(s[..k]) != count {
            if k == 0 {
            } else {
              Utf8LengthPrefix(s, k);
            }
          }
        }
      } else {
        forall k | 0 <= k <= |s| ensures Utf8Length(s[..k]) != count {
          if k > 0 {
            Utf8LengthPrefix(s, k);
          }
        }
      }
    }
  }

  /** On ASCII text bytes are characters, so `$substr` is a plain prefix of at most
      `count` characters and never fails. */
  lemma {:induction false} SubstrBytesAscii(s: string, count: nat)
    requires IsAscii(s)
    ensures SubstrBytes(s, count) == Some(s[..if count < |s| then count else |s|])
    decreases |s|
  {
    if |s| == 0 || count == 0 {
    } else {
      assert Utf8Width(s[0]) == 1;
      SubstrBytesAscii(s[1..], count - 1);
      var m := if count - 1 < |s| - 1 then count - 1 else |s| - 1;
      assert [s[0]] + s[1..][..m] == s[..m + 1];
    }
  }

  /** `{ $substrCP: [s, 0, count] }`: the first `count` code points of `s`. */
  function TakeCodePoints(s: string, count: nat): (r: string)
    ensures r <= s
    ensures |r| == if count < |s| then count else |s|
  {
    if count < |s| then s[..count] else s
  }
}

=== FILE: theme_context.dfy ===
/** The theme provider (`frontend/src/contexts/ThemeContext.tsx`): the current theme key
    and custom theme, which theme they resolve to, what `setTheme` stores, what a reload
    restores, and the CSS variables a resolved theme writes. Local storage is a map from
    keys to strings; the JSON encoding of a theme is a pair of functions passed in. */
module ThemeContext {
  import opened Wrappers
  import opened ThemeSelector

  const ThemeStorageKey: string := "chatapp-theme"
  const CustomStorageKey: string := "chatapp-custom-theme"
  const DefaultThemeKey: string := "blue"

  /** `currentTheme` and `customTheme` (`null` is `None`). */
  datatype ProviderState = ProviderState(current: string, custom: Option<Theme>)

  const InitialProvider := ProviderState(DefaultThemeKey, None)

  type Storage = map<string, string>

  /** `currentTheme === "custom" && customTheme ? customTheme : themes[currentTheme]`;
      a key that names no preset resolves to nothing. */
  function Resolve(st: ProviderState): (r: Option<Theme>)
    ensures st.current == CustomKey && st.custom.Some? ==> r == st.custom
    ensures st.current in Presets && st.current != CustomKey ==> r == Some(Presets[st.current])
    ensures r.None? <==> st.current !in Presets && !(st.current == CustomKey && st.custom.Some?)
  {
    if st.current == CustomKey && st.custom.Some? then st.custom
    else if st.current in Presets then Some(Presets[st.current])
    else None
  }

  /** The provider starts on the blue preset. */
  lemma InitialIsBlue()
    ensures Resolve(InitialProvider) == Some(Blue)
  {
  }

  // ---------------------------------------------------------------------------
  // setTheme and the reload that reads storage back
  // ---------------------------------------------------------------------------

  /** `setTheme(themeKey, newCustomTheme?)`: the key always becomes current and is
      stored; a supplied custom theme is kept and stored only under the key "custom". */
  function SetTheme(st: ProviderState, storage: Storage, key: string, newCustom: Option<Theme>,
                    encode: Theme -> string): (r: (ProviderState, Storage))
    ensures r.0.current == key
    ensures ThemeStorageKey in r.1 && r.1[ThemeStorageKey] == key
    ensures key == CustomKey && newCustom.Some? ==>
      r.0.custom == newCustom && CustomStorageKey in r.1 && r.1[CustomStorageKey] == encode(newCustom.value)
    ensures !(key == CustomKey && newCustom.Some?) ==>
      r.0.custom == st.custom && r.1 == storage[ThemeStorageKey := key]
    ensures forall k :: k in storage && k != ThemeStorageKey && k != CustomStorageKey ==> k in r.1 && r.1[k] == storage[k]
  {
    if key == CustomKey && newCustom.Some? then
      (ProviderState(key, newCustom),
       storage[CustomStorageKey := encode(newCustom.value)][ThemeStorageKey := key])
    else
      (st.(current := key), storage[ThemeStorageKey := key])
  }

  /** The mount effect. A stored key is adopted when it is a non-empty string; a stored
      custom theme is read only under the key "custom" and when non-empty, and a parse
      that throws (`decode` gives `None`) leaves the custom theme as it was. `decode`
      giving `Some(None)` is a parse to `null`. */
  function LoadFromStorage(st: ProviderState, storage: Storage, decode: string -> Option<Option<Theme>>): (r: ProviderState)
    ensures ThemeStorageKey !in storage || storage[ThemeStorageKey] == "" ==> r == st
    ensures ThemeStorageKey in storage && storage[ThemeStorageKey] != "" ==> r.current == storage[ThemeStorageKey]
    ensures r.custom != st.custom ==>
      && r.current == CustomKey
      && CustomStorageKey in storage && storage[CustomStorageKey] != ""
      && decode(storage[CustomStorageKey]) == Some(r.custom)
    ensures ThemeStorageKey in storage && storage[ThemeStorageKey] == CustomKey
      && CustomStorageKey in storage && storage[CustomStorageKey] != ""
      && decode(storage[CustomStorageKey]).Some?
      ==> r.custom == decode(storage[CustomStorageKey]).value
  {
    if ThemeStorageKey !in storage || storage[ThemeStorageKey] == "" then st
    else
      var key := storage[ThemeStorageKey];
      if key == CustomKey && CustomStorageKey in storage && storage[CustomStorageKey] != "" then
        match decode(storage[CustomStorageKey])
        case Some(custom) => ProviderState(key, custom)
        case None => st.(current := key)
      else st.(current := key)
  }

  /** A theme set with a non-empty key survives a reload: a fresh provider reading the
      storage `setTheme` left resolves to the theme the old one showed, provided the
      theme encoding reads back and never gives "", and a "custom" key came with its
      theme. */
  lemma SetThenReload(st: ProviderState, storage: Storage, key: string, newCustom: Option<Theme>,
                      encode: Theme -> string, decode: string -> Option<Option<Theme>>)
    requires forall t :: encode(t) != "" && decode(encode(t)) == Some(Some(t))
    requires key != ""
    requires key == CustomKey ==> newCustom.Some?
    ensures var (after, stored) := SetTheme(st, storage, key, newCustom, encode);
      && LoadFromStorage(InitialProvider, stored, decode).current == key
      && Resolve(LoadFromStorage(InitialProvider, stored, decode)) == Resolve(after)
  {
    var (after, stored) := SetTheme(st, storage, key, newCustom, encode);
    var reloaded := LoadFromStorage(InitialProvider, stored, decode);
    if key == CustomKey {
      assert stored[CustomStorageKey] == encode(newCustom.value);
      assert decode(encode(newCustom.value)) == Some(Some(newCustom.value));
      assert reloaded == ProviderState(key, newCustom);
    } else {
      assert reloaded == InitialProvider.(current := key);
    }
  }

  /** An empty key is shown as no theme at all, and a reload does not restore it: the
      provider comes back on the blue preset. */
  lemma EmptyKeyNotRestored(st: ProviderState, storage: Storage, encode: Theme -> string,
                            decode: string -> Option<Option<Theme>>)
    ensures var (after, stored) := SetTheme(st, storage, "", None, encode);
      && Resolve(after).None?
      && LoadFromStorage(InitialProvider, stored, decode) == InitialProvider
  {
    assert "" !in Presets;
  }

  // ---------------------------------------------------------------------------
  // What the picker's events do to the provider
  // ---------------------------------------------------------------------------

  /** The picker's `onThemeChange` is `setTheme`. */
  function OnThemeChange(st: ProviderState, storage: Storage, change: ThemeChange,
                         encode: Theme -> string): (ProviderState, Storage) {
    SetTheme(st, storage, change.key, change.custom, encode)
  }

  /** Choosing a preset in the picker shows that preset. */
  lemma SelectingPresetShowsIt(sel: SelectorState, st: ProviderState, storage: Storage,
                               i: nat, encode: Theme -> string)
    requires i < |PresetKeys|
    ensures var change := SelectPreset(sel, PresetKeys[i]).1;
      Resolve(OnThemeChange(st, storage, change, encode).0) == Some(Presets[PresetKeys[i]])
  {
    ExactlySixPresets();
    assert PresetKeys[i] in Presets;
    assert PresetKeys[i] != CustomKey;
  }

  /** Applying the custom theme in the picker shows exactly the edited theme. */
  lemma ApplyingCustomShowsIt(sel: SelectorState, st: ProviderState, storage: Storage,
                              encode: Theme -> string)
    ensures var change := ApplyCustom(sel).1;
      Resolve(OnThemeChange(st, storage, change, encode).0) == Some(sel.custom)
  {
  }

  // ---------------------------------------------------------------------------
  // The style variables
  // ---------------------------------------------------------------------------

  /** The CSS custom properties and body styles the apply effect writes, by name. */
  const BgPrimary: string := "--bg-primary"
  const BgSecondary: string := "--bg-secondary"
  const BgTertiary: string := "--bg-tertiary"
  const TextPrimary: string := "--text-primary"
  const TextSecondaryVar: string := "--text-secondary"
  const AccentColor: string := "--accent-color"
  const HoverColor: string := "--hover-color"
  const BorderColor: string := "--border-color"
  const BodyBackground: string := "body.background"
  const BodyColor: string := "body.color"

  const StyleNames: set<string> := {BgPrimary, BgSecondary, BgTertiary, TextPrimary, TextSecondaryVar,
                                     AccentColor, HoverColor, BorderColor, BodyBackground, BodyColor}

  /** The writes the apply effect makes: none when the theme resolves to nothing, and
      all ten otherwise. */
  function AppliedStyles(st: ProviderState): (r: map<string, string>)
    ensures Resolve(st).None? ==> r == map[]
    ensures Resolve(st).Some? ==> r.Keys == StyleNames
  {
    match Resolve(st)
    case None => map[]
    case Some(t) =>
      map[BgPrimary := t.background, BgSecondary := t.secondary, BgTertiary := t.tertiary,
          TextPrimary := t.text, TextSecondaryVar := t.textSecondary, AccentColor := t.accent,
          HoverColor := t.hover, BorderColor := t.border,
          BodyBackground := t.background, BodyColor := t.text]
  }

  /** Reads a theme's colours back from the written styles, under a given name. */
  function ThemeOfStyles(name: string, styles: map<string, string>): Option<Theme> {
    if BgPrimary in styles && BgSecondary in styles && BgTertiary in styles && TextPrimary in styles
      && TextSecondaryVar in styles && AccentColor in styles && HoverColor in styles && BorderColor in styles
    then
      Some(Theme(name, styles[BgPrimary], styles[BgSecondary], styles[BgTertiary], styles[TextPrimary],
                 styles[TextSecondaryVar], styles[AccentColor], styles[HoverColor], styles[BorderColor]))
    else None
  }

  /** Every colour of the resolved theme is written, each under its own variable, and
      the body's background and text colour follow the theme's. */
  lemma StylesCarryTheTheme(st: ProviderState)
    requires Resolve(st).Some?
    ensures var t, styles := Resolve(st).value, AppliedStyles(st);
      && ThemeOfStyles(t.name, styles) == Some(t)
      && styles[BodyBackground] == t.background && styles[BodyColor] == t.text
  {
    var t := Resolve(st).value;
    var styles := AppliedStyles(st);
    assert styles[BgPrimary] == t.background && styles[BgSecondary] == t.secondary;
    assert styles[BgTertiary] == t.tertiary && styles[TextPrimary] == t.text;
    assert styles[TextSecondaryVar] == t.textSecondary && styles[AccentColor] == t.accent;
    assert styles[HoverColor] == t.hover && styles[BorderColor] == t.border;
  }

  // ---------------------------------------------------------------------------
  // useTheme
  // ---------------------------------------------------------------------------

  /** What the provider hands to its consumers. */
  datatype ContextValue = ContextValue(currentTheme: string, theme: Option<Theme>)

  function ProvidedValue(st: ProviderState): ContextValue {
    ContextValue(st.current, Resolve(st))
  }

  const OutsideProviderError: string := "useTheme must be used within a ThemeProvider"

  /** `useTheme`: fails outside a provider and returns the provider's value inside one. */
  function UseTheme(provider: Option<ProviderState>): (r: Result<ContextValue, string>)
    ensures provider.None? <==> r == Failure(OutsideProviderError)
    ensures provider.Some? ==> r == Success(ProvidedValue(provider.value))
  {
    match provider
    case None => Failure(OutsideProviderError)
    case Some(st) => Success(ProvidedValue(st))
  }
}

=== FILE: theme_selector.dfy ===
/** The theme picker (`frontend/src/components/ThemeSelector.tsx`): the `Theme` record,
    the six preset themes, the editable custom theme, and the dropdown and customizer
    flags. What the picker hands to its owner is returned as a `ThemeChange` value. */
module ThemeSelector {
  import opened Wrappers

  /** A theme: a display name and eight colours. */
  datatype Theme = Theme(
    name: string,
    background: string,
    secondary: string,
    tertiary: string,
    text: string,
    textSecondary: string,
    accent: string,
    hover: string,
    border: string)

  // ---------------------------------------------------------------------------
  // The preset table
  // ---------------------------------------------------------------------------

  /** The preset keys, in the table's order. */
  const PresetKeys: seq<string> := ["blue", "blackWhite", "lightGray", "midnightBlue", "softPeach", "forestGreen"]

  const Blue := Theme("Ocean Blue (Current)",
    "#113F67", "#34699A", "#58A0C8", "#ffffff", "#c5c5d2", "#58A0C8", "#34699A", "#34699A")
  const BlackWhite := Theme("Black & White (Classic Dark)",
    "#000000", "#1F2937", "#374151", "#FFFFFF", "#D1D5DB", "#FACC15", "#1F2937", "#374151")
  const LightGray := Theme("Light Gray & White (Minimalist Light)",
    "#F9FAFB", "#FFFFFF", "#E5E7EB", "#111827", "#6B7280", "#6366F1", "#E5E7EB", "#D1D5DB")
  const MidnightBlue := Theme("Midnight Blue (Calm Dark)",
    "#0F172A", "#1E293B", "#334155", "#F1F5F9", "#CBD5E1", "#3B82F6", "#1E293B", "#334155")
  const SoftPeach := Theme("Soft Peach (Warm Light)",
    "#FFF7F0", "#FFFFFF", "#FFE3DC", "#3A3A3A", "#6B7280", "#FF6B6B", "#FFE3DC", "#FECACA")
  const ForestGreen := Theme("Forest Green (Nature Inspired)",
    "#F0FDF4", "#FFFFFF", "#D1FAE5", "#064E3B", "#047857", "#10B981", "#D1FAE5", "#A7F3D0")

  /** `themes`: preset key to theme. */
  const Presets: map<string, Theme> := map[
    "blue" := Blue,
    "blackWhite" := BlackWhite,
    "lightGray" := LightGray,
    "midnightBlue" := MidnightBlue,
    "softPeach" := SoftPeach,
    "forestGreen" := ForestGreen]

  /** The table holds exactly the six listed keys, each listed once, so the dropdown
      shows six preset options. */
  lemma ExactlySixPresets()
    ensures |PresetKeys| == 6
    ensures forall i, j :: 0 <= i < j < |PresetKeys| ==> PresetKeys[i] != PresetKeys[j]
    ensures forall k :: k in Presets <==> k in PresetKeys
  {
    var lengths := [4, 10, 9, 12, 9, 11];
    forall i | 0 <= i < |PresetKeys| ensures |PresetKeys[i]| == lengths[i] {
    }
    assert PresetKeys[2][0] == 'l' && PresetKeys[4][0] == 's';
    forall i, j | 0 <= i < j < |PresetKeys| ensures PresetKeys[i] != PresetKeys[j] {
      if i == 2 && j == 4 {
        assert PresetKeys[i][0] != PresetKeys[j][0];
      } else {
        assert lengths[i] != lengths[j];
      }
    }
  }

  // ---------------------------------------------------------------------------
  // Editing one property of a theme
  // ---------------------------------------------------------------------------

  /** `keyof Theme`. */
  datatype Property =
    | Name | Background | Secondary | Tertiary | Text | TextSecondary | Accent | Hover | Border

  function Get(t: Theme, p: Property): string {
    match p
    case Name => t.name
    case Background => t.background
    case Secondary => t.secondary
    case Tertiary => t.tertiary
    case Text => t.text
    case TextSecondary => t.textSecondary
    case Accent => t.accent
    case Hover => t.hover
    case Border => t.border
  }

  /** `{ ...prev, [property]: value }`: the named property takes the new value and every
      other property keeps its old one. */
  function Set(t: Theme, p: Property, value: string): (r: Theme)
    ensures Get(r, p) == value
    ensures forall q :: q != p ==> Get(r, q) == Get(t, q)
  {
    match p
    case Name => t.(name := value)
    case Background => t.(background := value)
    case Secondary => t.(secondary := value)
    case Tertiary => t.(tertiary := value)
    case Text => t.(text := value)
    case TextSecondary => t.(textSecondary := value)
    case Accent => t.(accent := value)
    case Hover => t.(hover := value)
    case Border => t.(border := value)
  }

  /** Two themes agreeing on every property are the same theme. */
  lemma ThemeByProperties(a: Theme, b: Theme)
    requires forall p :: Get(a, p) == Get(b, p)
    ensures a == b
  {
    assert Get(a, Name) == Get(b, Name) && Get(a, Background) == Get(b, Background);
    assert Get(a, Secondary) == Get(b, Secondary) && Get(a, Tertiary) == Get(b, Tertiary);
    assert Get(a, Text) == Get(b, Text) && Get(a, TextSecondary) == Get(b, TextSecondary);
    assert Get(a, Accent) == Get(b, Accent) && Get(a, Hover) == Get(b, Hover);
    assert Get(a, Border) == Get(b, Border);
  }

  /** Writing back the value a property already has changes nothing, and a second
      write to the same property overrides the first. */
  lemma SetLaws(t: Theme, p: Property, v: string, w: string)
    ensures Set(t, p, Get(t, p)) == t
    ensures Set(Set(t, p, v), p, w) == Set(t, p, w)
  {
    ThemeByProperties(Set(t, p, Get(t, p)), t);
    ThemeByProperties(Set(Set(t, p, v), p, w), Set(t, p, w));
  }

  // ---------------------------------------------------------------------------
  // The picker's state
  // ---------------------------------------------------------------------------

  const CustomThemeName: string := "Custom Theme"
  const CustomKey: string := "custom"

  /** The custom theme the picker starts from. */
  const InitialCustomTheme := Theme(CustomThemeName,
    "#113F67", "#34699A", "#58A0C8", "#ffffff", "#c5c5d2", "#58A0C8", "#34699A", "#34699A")

  /** The starting custom theme is the blue preset under its own name. */
  lemma InitialCustomIsBlue()
    ensures InitialCustomTheme.name == CustomThemeName
    ensures forall p :: p != Name ==> Get(InitialCustomTheme, p) == Get(Presets["blue"], p)
    ensures InitialCustomTheme == Presets["blue"].(name := CustomThemeName)
  {
  }

  /** `isOpen`, `showCustomizer`, `customTheme`. */
  datatype SelectorState = SelectorState(isOpen: bool, showCustomizer: bool, custom: Theme)

  const InitialSelector := SelectorState(false, false, InitialCustomTheme)

  /** A call of `onThemeChange(themeKey, customTheme?)`. */
  datatype ThemeChange = ThemeChange(key: string, custom: Option<Theme>)

  /** `handleThemeSelect`: reports the key with no custom theme and closes the dropdown. */
  function SelectPreset(st: SelectorState, key: string): (r: (SelectorState, ThemeChange))
    ensures r.1 == ThemeChange(key, None)
    ensures !r.0.isOpen
    ensures r.0.showCustomizer == st.showCustomizer && r.0.custom == st.custom
  {
    (st.(isOpen := false), ThemeChange(key, None))
  }

  /** `handleCustomThemeChange`: edits one property of the custom theme only. */
  function EditCustom(st: SelectorState, p: Property, value: string): (r: SelectorState)
    ensures Get(r.custom, p) == value
    ensures forall q :: q != p ==> Get(r.custom, q) == Get(st.custom, q)
    ensures r.isOpen == st.isOpen && r.showCustomizer == st.showCustomizer
  {
    st.(custom := Set(st.custom, p, value))
  }

  /** `applyCustomTheme`: reports the key "custom" with the edited theme and closes both
      the customizer and the dropdown; the edited theme is kept for the next time. */
  function ApplyCustom(st: SelectorState): (r: (SelectorState, ThemeChange))
    ensures r.1 == ThemeChange(CustomKey, Some(st.custom))
    ensures !r.0.isOpen && !r.0.showCustomizer
    ensures r.0.custom == st.custom
  {
    (SelectorState(false, false, st.custom), ThemeChange(CustomKey, Some(st.custom)))
  }

  /** The toggle button. */
  function Toggle(st: SelectorState): (r: SelectorState)
    ensures r.isOpen == !st.isOpen
    ensures r.showCustomizer == st.showCustomizer && r.custom == st.custom
  {
    st.(isOpen := !st.isOpen)
  }

  /** Toggling twice restores the state. */
  lemma ToggleTwice(st: SelectorState)
    ensures Toggle(Toggle(st)) == st
  {
  }

  /** The dropdown's close button. */
  function CloseDropdown(st: SelectorState): SelectorState {
    st.(isOpen := false)
  }

  /** The "Custom Theme" option opens the customizer; the modal's close and cancel
      buttons close it. */
  function SetCustomizer(st: SelectorState, open: bool): SelectorState {
    st.(showCustomizer := open)
  }

  /** The "active" class on a preset option. */
  predicate OptionActive(currentTheme: string, key: string) {
    currentTheme == key
  }

  /** At most one preset option is highlighted: the one whose key is the current theme,
      and none while a custom theme is current (the custom option never is). */
  lemma OneActiveOption(currentTheme: string)
    ensures forall i, j :: 0 <= i < j < |PresetKeys| && OptionActive(currentTheme, PresetKeys[i]) ==>
      !OptionActive(currentTheme, PresetKeys[j])
    ensures currentTheme == CustomKey ==> forall i :: 0 <= i < |PresetKeys| ==> !OptionActive(currentTheme, PresetKeys[i])
    ensures currentTheme in Presets <==> exists i :: 0 <= i < |PresetKeys| && OptionActive(currentTheme, PresetKeys[i])
  {
    ExactlySixPresets();
  }
}

=== FILE: wrappers.dfy ===
/** Failure-carrying datatypes shared by the whole model. */
module Wrappers {

  /** An optional value: JavaScript's `undefined`/`null` become `None`. */
  datatype Option<+T> = None | Some(value: T) {

    /** The wrapped value, or `default` when there is none. */
    function GetOr(default: T): T {
      match this
      case Some(v) => v
      case None => default
    }
  }

  /** The outcome of an operation that either produces a value or fails with an error. */
  datatype Result<+R, +E> = Success(value: R) | Failure(error: E) {

    predicate IsFailure() {
      Failure?
    }

    function PropagateFailure<U>(): Result<U, E>
      requires Failure?
    {
      Failure(error)
    }

    function Extract(): R
      requires Success?
    {
      value
    }
  }
}
